=== FILE: README.md ===
# Clone tracker model

A Dafny model of the computational core of a GitHub clone-traffic tracker.
The tracker has two parts:

- **Collector** (`github_clone_tracker.py`). Each run it fetches every
  repository's daily clone samples and merges them into a persisted store.
  A stored day is replaced only by a sample with a strictly larger `count`.
  It then rebuilds a cumulative per-date series: `daily_clones` is the sum
  over repositories of that date's count, and `total_clones` is the running
  sum along the sorted dates.
- **Visualizer** (`visualizer.py`). It reads the store and derives:
  - the two cumulative charts' series;
  - the per-repository totals, with non-positive totals dropped;
  - the stable descending top-15 breakdown, top-5 trend lines and top-10
    summary list;
  - the summary integers (total at the latest date, days tracked,
    repositories with data).

The store is `CloneData.Store`:

- `repositories` maps a repository name to its record, a map from
  `YYYY-MM-DD` to `{count, uniques}`;
- `cumulative` maps a date to `{total_clones, daily_clones}`;
- `last_updated` is an optional stamp.

Dates are strings ordered by Python's string comparison (`Keys.Less`,
code-point lexicographic), and `Keys.SortedKeys` plays `sorted(d.keys())`.
Dictionary iteration order, which decides how ties are ordered in the
rankings, is an explicit `order` argument that lists each repository once.

Modules, in dependency order:

- `Wrappers`: `Option`.
- `Keys`: string order, sorted keys, greatest key.
- `Sums`: totals and running sums over key sequences.
- `CloneData`: the entities.
- `Collector`: the merge of a fetched batch, `process_repository`.
- `Aggregate`: the rebuild of `cumulative`, `calculate_cumulative_stats`.
- `Ranking`: repository totals, the stable descending sort, top N.
- `Report`: what the visualizer draws and summarises.
- `Tracker`: the collector's `run`.

## Model

| member | source | states |
|---|---|---|
| Keys.LessIsStrictTotalOrder | github_clone_tracker.py:140 | The string order used to sort dates is irreflexive, transitive and total, so every set of dates has one sorted order |
| Keys.SortedKeys | github_clone_tracker.py:140 | `sorted(keys)` lists every key of the set exactly once and nothing else |
| Keys.SortedKeysOrdered | github_clone_tracker.py:140 | The keys `sorted(keys)` lists are in strictly increasing string order |
| Keys.GreatestKey | github_clone_tracker.py:177 | `max(keys)` is one of the keys and no key is greater than it |
| Keys.SortedKeysUpTo | github_clone_tracker.py:177 | Every key in the sorted sequence is at most the greatest key |
| Collector.DateKey | github_clone_tracker.py:113 | The date key is a prefix of the timestamp, of length 10, or the whole timestamp when it is shorter |
| Collector.MergeSample | github_clone_tracker.py:117-122 | One sample adds its date to the record. It leaves every other date unchanged. An absent date gets the sample's whole `{count, uniques}`. A present date ends with the larger of the two counts and holds either its old record or the sample's whole record, never a field-wise mix. A sample whose count is not larger leaves the record unchanged |
| Collector.MergeSamples | github_clone_tracker.py:112-122 | The merge loop over a batch leaves the record with exactly its old dates plus the batch's date keys |
| Collector.MergeSamplesUntouched | github_clone_tracker.py:112-122 | A date that no sample of the batch carries keeps its record |
| Collector.MergeSamplesKeepsUnraised | github_clone_tracker.py:118-122 | A stored date whose samples in the batch are all no larger than its count keeps its whole record, uniques included, even when the batch raises other dates |
| Collector.MergeSamplesNeverLowers | github_clone_tracker.py:118 | Merging never lowers a stored count |
| Collector.MergeSamplesDominates | github_clone_tracker.py:118-122 | After the merge, each sample's date holds a count at least the sample's |
| Collector.MergeSamplesProvenance | github_clone_tracker.py:118-122 | Every record after the merge is either the date's old record or the record of one of the batch's samples |
| Collector.MergeSamplesSpec | github_clone_tracker.py:112-122 | The batch properties above, for every date and sample: new dates added, untouched and unraised dates keep their record, no count falls, every sample is dominated, every record comes whole from the store or a sample |
| Collector.MergeDominated | github_clone_tracker.py:118 | A batch whose every sample is dominated by the stored count leaves the record unchanged, uniques included |
| Collector.MergeSamplesIdempotent | github_clone_tracker.py:112-122 | Merging the same batch twice equals merging it once |
| Collector.MergeOrderIndependent | github_clone_tracker.py:118-122 | Two samples for the same date, merged in either order, leave the larger count. When the counts differ, both orders give the same record |
| Collector.MergeDistinctDatesCommute | github_clone_tracker.py:112-122 | Samples for different dates can be merged in either order |
| Collector.GrowsTransitive | github_clone_tracker.py:162-163 | "No repository or date is lost and no count falls" composes across successive repositories of a run |
| Collector.ProcessRepository | github_clone_tracker.py:98-122 | A failed fetch leaves the store unchanged. A successful fetch adds the repository if it is absent and changes no other repository. Every repository and date keeps existing with a count that never falls. The merged record has exactly the old dates plus the batch's dates. Every fetched date holds a count at least the sample's, and every record is the old one or the whole record of a sample for that date. Dates not fetched keep their record, and so does every stored date whose fetched samples are all no larger than its count. An empty batch leaves an existing record as it was, or creates an empty one. A batch whose every sample is already stored with a count at least its own leaves the store unchanged, since only a strictly greater count replaces a day |
| Collector.MergeInto | github_clone_tracker.py:106-122 | Merging a batch into one repository adds that repository if absent and leaves every other one as it was. Nothing stored is lost or lowered. The merged record has exactly the old dates plus the batch's dates, dominates every sample, keeps every stored date no sample raises, and holds at each date the old record or the whole record of a sample for that date |
| Collector.MergeIntoDominated | github_clone_tracker.py:118-122 | A batch dominated by the stored record leaves the whole repository map as it was, uniques included |
| Aggregate.AddCounts | github_clone_tracker.py:131-135 | The inner loop creates each of the repository's dates at 0 when missing, then adds that repository's count |
| Aggregate.Accumulate | github_clone_tracker.py:130-135 | After the outer loop, every date's sum is the starting value plus the reference sum over the processed repositories, with 0 for a repository without the date |
| Aggregate.DailyTotals | github_clone_tracker.py:128-135 | The per-date sums cover exactly the dates of all repositories, and each equals the sum over repositories of that date's count |
| Aggregate.Emit | github_clone_tracker.py:143-149 | The emitting loop writes one entry per sorted date carrying its running total and its daily sum |
| Aggregate.EmitTotalAt | github_clone_tracker.py:144-147 | The `i`-th emitted running total is the sum of the daily sums of the dates up to and including the `i`-th |
| Aggregate.EmitRunning | github_clone_tracker.py:140-149 | The emitted series has the summed dates as keys, carries each date's sum as `daily_clones`, and its `total_clones` at each date is the sum of `daily_clones` over the dates at or before it |
| Aggregate.Cumulative | github_clone_tracker.py:126-149 | The rebuilt series has exactly the union of the repositories' dates. `daily_clones` at each is the sum over repositories. `total_clones` is the sum of `daily_clones` over the dates at or before it |
| Aggregate.RecomputeCumulative | github_clone_tracker.py:126-149 | The rebuild leaves `repositories` and `last_updated` alone and makes the store consistent |
| Aggregate.EmptyStoreConsistent | github_clone_tracker.py:47-51 | The default empty store already satisfies the consistency invariants |
| Aggregate.ConsistentDeterminesCumulative | github_clone_tracker.py:143-149 | Two consistent stores with the same repositories have the same `cumulative`. The rebuild depends on `repositories` alone, and the old series is discarded |
| Aggregate.RecomputeIdempotent | github_clone_tracker.py:126-149 | Rebuilding twice equals rebuilding once |
| Aggregate.TotalsNondecreasing | github_clone_tracker.py:140-149 | With non-negative counts, `total_clones` does not decrease along the date order |
| Aggregate.LatestTotalIsSumOfDaily | github_clone_tracker.py:176-178 | `total_clones` at the greatest date is the sum of every date's `daily_clones` |
| Sums.RunningFrom | visualizer.py:177-182 | The running-sum loop's `i`-th output is the start plus the sum over the first `i + 1` keys |
| Sums.RunningTotals | github_clone_tracker.py:144-145 | The running totals along the keys: the `i`-th is the sum over the first `i + 1` keys |
| Sums.TotalThroughIsPrefix | github_clone_tracker.py:144-147 | Along increasing keys, the sum over keys at most the `i`-th key equals the sum over the first `i + 1` keys |
| Sums.TotalThroughMonotone | github_clone_tracker.py:144-147 | With non-negative values, the sum over keys at most a bound grows with the bound |
| Sums.RunningTotalsNondecreasing | visualizer.py:180-182 | With non-negative values the running sums never fall |
| Ranking.Positive | visualizer.py:115-116 | The filter keeps exactly the items whose total is positive |
| Ranking.PositiveKeepsTies | visualizer.py:115-116 | For each positive total, the filter keeps the items with that total in their order |
| Ranking.AllTotals | visualizer.py:113-114 | Each repository in iteration order, paired with the sum of its counts |
| Ranking.RepoTotal | visualizer.py:114 | A repository's total is 0 when its record has no dates, and non-negative when its counts are |
| Ranking.PositiveTotals | visualizer.py:112-116 | `repo_totals` lists only repositories with their correct positive total, and lists every repository whose total is positive |
| Ranking.PositiveDistinctNames | visualizer.py:113-116 | Iterating each repository once gives each candidate at most once |
| Ranking.PositiveTotalsNameSet | visualizer.py:112-116 | The candidates' names are exactly the repositories with a positive total |
| Ranking.PositiveTotalsCount | visualizer.py:112-116 | There are exactly as many candidates as repositories with a positive total, with no name twice |
| Ranking.InsertElements | visualizer.py:123 | The insertion step adds exactly the inserted item |
| Ranking.InsertDescending | visualizer.py:123 | The insertion step keeps a descending sequence descending |
| Ranking.InsertStable | visualizer.py:123 | The inserted item goes ahead of the items with its own total, as Python's stable sort puts earlier input first |
| Ranking.SortDescending | visualizer.py:123 | The sort keeps the number of items. Its order, permutation and stability are the three lemmas below |
| Ranking.SortDescendingOrdered | visualizer.py:123 | `sorted(..., reverse=True)` by total gives a sequence that is descending by total |
| Ranking.SortDescendingElements | visualizer.py:123 | The sort gives a permutation of its input |
| Ranking.SortDescendingStable | visualizer.py:123 | The sort is stable: items with equal totals keep their input order |
| Ranking.Top | visualizer.py:123 | `[:n]` keeps `min(n, len)` items, in descending order, as a prefix of the full sort |
| Ranking.TopDominates | visualizer.py:123 | An item left out of the top `n` has a total no larger than any item kept |
| Ranking.TopRepositories | visualizer.py:112-123 | The ranking is descending and at most `n` long. Each entry is a repository with its correct, positive total. The ranking is a prefix of the stable descending sort of the positive totals |
| Ranking.TopRepositoriesLength | visualizer.py:123 | The ranking has exactly `min(n, number of repositories with positive total)` entries |
| Ranking.TopRepositoriesDominate | visualizer.py:123 | Every repository with a positive total that is left out has a total no larger than any ranked one |
| Ranking.TopRepositoriesLead | visualizer.py:123 | The top `n` are a prefix of the full sort, and no left-out repository with a positive total beats a ranked one |
| Ranking.TopRepositoriesTies | visualizer.py:123 | The ranking is a prefix of the full stable sort. Among repositories with equal totals, the sort keeps iteration order |
| Ranking.RankedNamesPositive | visualizer.py:172-173 | Every ranked name is a repository with a positive total, so the trend loop's lookup succeeds |
| Report.ChartDates | visualizer.py:44 | The chart's x axis lists every date of `cumulative` once, in increasing order |
| Report.DailySeriesSumsRepositories | visualizer.py:78-79 | For a consistent store, each bar of the daily chart is the sum, over all repositories, of their counts at that date |
| Report.CumulativeSeriesNondecreasing | visualizer.py:44-45 | For a consistent store with non-negative counts, the cumulative chart never falls |
| Report.CumulativeSeriesIsRunningDaily | visualizer.py:44-45 | Each cumulative point is the running sum of the daily chart's bars up to it |
| Report.Breakdown | visualizer.py:112-124 | The breakdown has `min(15, positive repositories)` bars, descending, each a repository's positive total. The bars are the head of the stable descending sort, and no repository left out has a larger positive total than a bar |
| Report.TrendSeries | visualizer.py:176-182 | A repository's trend has one point per date, in date order, each the sum of its counts up to that date |
| Report.TrendEndsAtTotal | visualizer.py:176-182 | A trend's last point is the repository's total |
| Report.TrendNondecreasing | visualizer.py:176-182 | With non-negative counts a trend never falls |
| Report.TrendLineOf | visualizer.py:173-182 | A ranked repository's line runs over its sorted dates. The point at each date is the sum of the counts up to and including that date, so the line ends at the total |
| Report.TrendLines | visualizer.py:172-182 | The `i`-th line is drawn for the `i`-th ranked repository, with the running sum of its counts at every one of its sorted dates |
| Report.RepositoryTrends | visualizer.py:155-182 | The trend chart draws `min(5, positive repositories)` lines, the `i`-th for the `i`-th repository of the top-5 ranking. Each line runs over that repository's own sorted dates. Its point at each date is the running sum of the counts up to that date, ending at the positive total |
| Report.LatestTotalIsSum | github_clone_tracker.py:176-180 | The closing summary's total, `total_clones` at the latest date or 0 without dates, is the sum of every date's `daily_clones` |
| Report.LatestTotal | github_clone_tracker.py:176-180 | The closing summary's total is 0 without dates, and otherwise `total_clones` at a date no other date exceeds |
| Report.ReposWithData | visualizer.py:229 | The number of repositories with data lies between the number with a positive total and the number of repositories. It is 0 exactly when no record has a date, and it equals the number of repositories exactly when every record has one |
| Report.ReposWithDataCounted | visualizer.py:229 | Counting the records with data along the iteration order, as the list comprehension does, gives the same number |
| Report.StatsSummary | visualizer.py:218-243 | The "Overall Statistics" numbers exist exactly when `cumulative` has dates. "Days Tracked" is then the number of dates, and for a consistent store the number of dates any repository has. "Total Clones" is the `total_clones` of the greatest date. For a series that keeps the running invariant, that is the sum of the daily sums. "Repositories Tracked" is the count of records with data along the iteration order, between the number of positive repositories and the number of repositories. The top list has `min(10, positive repositories)` entries, descending, with correct positive totals, and heads the stable descending sort |
| Tracker.ProcessAll | github_clone_tracker.py:162-163 | Processing the listed repositories adds exactly those whose fetch succeeded and leaves the others unchanged. No repository, date or count is lost. Every fetched sample is stored at its date with at least its count. Every record afterwards is the one stored before for that repository and date, or the whole record of a sample fetched for that repository. A stored record that no sample fetched for its repository and date exceeds is kept, uniques included |
| Tracker.Run | github_clone_tracker.py:151-170 | A run ends with a consistent store stamped with the run's time. The store has grown from the old one, holds every fetched sample with at least its count, and leaves repositories whose fetch failed as they were. Every record is the one stored before or the whole record of a sample fetched for that repository, and a stored record no fetched sample exceeds is kept whole |
| Tracker.Summarize | github_clone_tracker.py:173-180 | The closing summary's numbers. Repositories with data is the number of records with a date, between the number with a positive total and the number of repositories. Days tracked is the size of `cumulative`. Total clones is 0 without dates and, for a consistent store, the sum of the daily sums |
| Tracker.FirstSampleScenario | github_clone_tracker.py:112-149 | A first run on an empty store with one sample of 5 clones yields one cumulative entry with total 5 and daily 5 |
| Tracker.NoRegressionScenario | github_clone_tracker.py:118 | A stored count of 3 survives a later run that fetches count 2 for the same date |
| Tracker.TwoRepositoriesScenario | github_clone_tracker.py:127-149 | With "a" holding 5 and 3 clones on two dates and "b" holding 2 on the first, a consistent store's `cumulative` is `{2024-01-01: (7, 7), 2024-01-02: (10, 3)}` |

## Left out

- HTTP: the paginated repository listing and the traffic request with its
  status handling (`github_clone_tracker.py:60-96`). A run takes, for each
  listed repository, the request's outcome as an `Option` of samples.
  `None` covers a failed request, an empty answer and an answer without
  `clones`.
- JSON load and save, the file checks and the `datetime.now()` stamp.
  The stamp is the `now` argument of `Tracker.Run`. The stored file is the
  `Store` value.
- Environment variables, `sys.exit` and all console printing.
- All matplotlib drawing, `strptime` and the file writes of the visualizer.
  The model stops at the series and integers that are drawn.
- The "Average Daily Clones" float division (`visualizer.py:226`).
- The `unique_users` set, which is created and never read
  (`github_clone_tracker.py:133`). The model's cumulative entry has only
  `total_clones` and `daily_clones`.
- The record shape `{'daily_clones': {...}}`. A repository's record is
  modelled directly as its date map.
- Dictionary insertion order. Sums over a map are taken along its sorted
  keys, and integer sums do not depend on order. Where order matters (ties
  in the rankings), it is the explicit `order` argument.
- The visualizer's early returns on missing or empty data. The derived
  series are then empty, and the model returns the empty sequence.
- The rankings keep only totals `> 0` (`visualizer.py:115-116`), so a
  negative total is dropped as well as a zero one, and the model does the
  same.
- Report.StatsSummary: an empty top list stands for the missing "Top 10"
  section, which the summary leaves out when no repository has a positive
  total (`visualizer.py:234-241`).

=== FILE: aggregate.dfy ===
/**
 The cumulative series (`CloneTracker.calculate_cumulative_stats`): counts are
 summed per date across all repositories, the dates are sorted, and a running
 total is emitted along them. The series is rebuilt from `repositories` alone
 on every run.
 */
module Aggregate {
  import opened Keys
  import opened Sums
  import opened CloneData

  /** Reference sum over the repositories `names` of their counts at `date`. */
  function SumOverRepos(repos: Repositories, names: seq<string>, date: string): int {
    if names == [] then 0
    else (if names[0] in repos then Get(Counts(repos[names[0]]), date) else 0)
         + SumOverRepos(repos, names[1..], date)
  }

  /** Every date some repository has an entry for. */
  function AllDates(repos: Repositories): set<string>
  {
    set n, d | n in repos && d in repos[n] :: d
  }

  /** The date sums' reference: over all repositories, in name order. */
  function DailySum(repos: Repositories, date: string): int {
    SumOverRepos(repos, SortedKeys(repos.Keys), date)
  }

  /**
   The inner accumulation loop for one repository: for each of `dates`,
   create the date's entry at 0 if missing, then add the repository's count.
   */
  function AddCounts(acc: map<string, int>, daily: Daily, dates: seq<string>): (r: map<string, int>)
    requires Distinct(dates)
    requires forall d :: d in dates ==> d in daily
    ensures r.Keys == acc.Keys + (set d | d in dates)
    ensures forall d :: Get(r, d) == Get(acc, d) + (if d in dates then daily[d].count else 0)
    decreases |dates|
  {
    if dates == [] then acc
    else
      var d0 := dates[0];
      var r := AddCounts(acc[d0 := Get(acc, d0) + daily[d0].count], daily, dates[1..]);
      assert forall d :: d in dates <==> d == d0 || d in dates[1..];
      assert d0 !in dates[1..];
      r
  }

  /** The outer accumulation loop, over the repositories `names`. */
  function Accumulate(acc: map<string, int>, repos: Repositories, names: seq<string>): (r: map<string, int>)
    requires forall n :: n in names ==> n in repos
    ensures forall d :: d in r <==> d in acc || exists n :: n in names && d in repos[n]
    ensures forall d :: Get(r, d) == Get(acc, d) + SumOverRepos(repos, names, d)
    decreases |names|
  {
    if names == [] then acc
    else
      var n0 := names[0];
      var dates := SortedKeys(repos[n0].Keys);
      var next := AddCounts(acc, repos[n0], dates);
      assert forall d :: d in next <==> d in acc || d in repos[n0];
      var r := Accumulate(next, repos, names[1..]);
      assert forall n :: n in names <==> n == n0 || n in names[1..];
      r
  }

  /** Per-date sums of counts over all repositories (the first loop). */
  function DailyTotals(repos: Repositories): (r: map<string, int>)
    ensures r.Keys == AllDates(repos)
    ensures forall d :: d in r ==> r[d] == DailySum(repos, d)
  {
    var names := SortedKeys(repos.Keys);
    var r := Accumulate(map[], repos, names);
    assert r.Keys == AllDates(repos) by {
      forall d
        ensures d in r <==> d in AllDates(repos)
      {
        if d in AllDates(repos) {
          var n :| n in repos && d in repos[n];
          assert n in names;
        }
      }
    }
    assert forall d :: d in r ==> r[d] == DailySum(repos, d) by {
      forall d | d in r
        ensures r[d] == DailySum(repos, d)
      {
        assert Get(r, d) == Get(map[], d) + SumOverRepos(repos, names, d);
      }
    }
    r
  }

  /** A cumulative series' `daily_clones` column, as a map. */
  function DailyOf(cum: map<string, CumEntry>): (f: map<string, int>)
    ensures f.Keys == cum.Keys
    ensures forall d :: d in cum ==> f[d] == cum[d].dailyClones
  {
    map d | d in cum :: cum[d].dailyClones
  }

  /**
   Each date's `total_clones` is the sum of `daily_clones` over all dates of
   the series at or before it.
   */
  predicate RunningInvariant(cum: map<string, CumEntry>) {
    forall d :: d in cum ==> cum[d].totalClones == TotalThrough(DailyOf(cum), SortedKeys(cum.Keys), d)
  }

  /** The invariants tying a store's `cumulative` to its `repositories`. */
  predicate Consistent(store: Store) {
    && store.cumulative.Keys == AllDates(store.repositories)
    && (forall d :: d in store.cumulative ==> store.cumulative[d].dailyClones == DailySum(store.repositories, d))
    && RunningInvariant(store.cumulative)
  }

  /**
   The emitting loop: the entry for `dates[i]` carries `totals[i]` as its
   running total and the date's sum from `daily`.
   */
  function Emit(daily: map<string, int>, dates: seq<string>, totals: seq<int>): (r: map<string, CumEntry>)
    requires |totals| == |dates| && Distinct(dates)
    ensures forall d :: d in r <==> d in dates
    ensures forall i :: 0 <= i < |dates| ==> r[dates[i]] == CumEntry(totals[i], Get(daily, dates[i]))
    decreases |dates|
  {
    if dates == [] then map[]
    else
      var rest := Emit(daily, dates[1..], totals[1..]);
      assert dates[0] !in dates[1..];
      rest[dates[0] := CumEntry(totals[0], Get(daily, dates[0]))]
  }

  /** The rebuilt series: date sums, sorted dates, running totals. */
  function Cumulative(repos: Repositories): (r: map<string, CumEntry>)
    ensures r.Keys == AllDates(repos)
    ensures forall d :: d in r ==> r[d].dailyClones == DailySum(repos, d)
    ensures RunningInvariant(r)
  {
    var daily := DailyTotals(repos);
    var dates := SortedKeys(daily.Keys);
    var r := Emit(daily, dates, RunningTotals(daily, dates));
    EmitRunning(daily, dates, RunningTotals(daily, dates));
    r
  }

  lemma EmitDaily(daily: map<string, int>, dates: seq<string>, totals: seq<int>)
    requires dates == SortedKeys(daily.Keys)
    requires |totals| == |dates|
    ensures var r := Emit(daily, dates, totals);
      && r.Keys == daily.Keys
      && (forall d :: d in r ==> r[d].dailyClones == daily[d])
      && DailyOf(r) == daily
  {
    var r := Emit(daily, dates, totals);
    forall d | d in r
      ensures d in daily && r[d].dailyClones == daily[d]
    {
      var i :| 0 <= i < |dates| && dates[i] == d;
    }
    assert r.Keys == daily.Keys;
  }

  lemma EmitTotalAt(daily: map<string, int>, dates: seq<string>, totals: seq<int>, i: nat)
    requires dates == SortedKeys(daily.Keys)
    requires totals == RunningTotals(daily, dates)
    requires i < |dates|
    ensures Emit(daily, dates, totals)[dates[i]].totalClones == TotalThrough(daily, dates, dates[i])
  {
    assert totals[i] == Total(daily, dates[..i + 1]);
    SortedKeysOrdered(daily.Keys);
    TotalThroughIsPrefix(daily, dates, i);
  }

  lemma EmitTotals(daily: map<string, int>, dates: seq<string>, totals: seq<int>)
    requires dates == SortedKeys(daily.Keys)
    requires totals == RunningTotals(daily, dates)
    ensures var r := Emit(daily, dates, totals);
      forall d :: d in r ==> r[d].totalClones == TotalThrough(daily, dates, d)
  {
    var r := Emit(daily, dates, totals);
    forall d | d in r
      ensures r[d].totalClones == TotalThrough(daily, dates, d)
    {
      var i :| 0 <= i < |dates| && dates[i] == d;
      EmitTotalAt(daily, dates, totals, i);
    }
  }

  /** Emitting the running totals along the sorted dates keeps the running invariant. */
  lemma EmitRunning(daily: map<string, int>, dates: seq<string>, totals: seq<int>)
    requires dates == SortedKeys(daily.Keys)
    requires totals == RunningTotals(daily, dates)
    ensures var r := Emit(daily, dates, totals);
      && r.Keys == daily.Keys
      && (forall d :: d in r ==> r[d].dailyClones == daily[d])
      && RunningInvariant(r)
  {
    EmitDaily(daily, dates, totals);
    EmitTotals(daily, dates, totals);
  }

  /** `calculate_cumulative_stats`: the old series is discarded and rebuilt. */
  function RecomputeCumulative(store: Store): (r: Store)
    ensures r.repositories == store.repositories
    ensures r.lastUpdated == store.lastUpdated
    ensures Consistent(r)
  {
    store.(cumulative := Cumulative(store.repositories))
  }

  /**
   The invariants determine the series: two consistent stores with the same
   repositories have the same `cumulative`, whatever it was before.
   */
  lemma ConsistentDeterminesCumulative(s1: Store, s2: Store)
    requires Consistent(s1) && Consistent(s2)
    requires s1.repositories == s2.repositories
    ensures s1.cumulative == s2.cumulative
  {
    var c1, c2 := s1.cumulative, s2.cumulative;
    assert c1.Keys == c2.Keys;
    forall d | d in c1
      ensures DailyOf(c1)[d] == DailyOf(c2)[d]
    {
    }
    RunningDeterminedByDaily(c1, c2);
  }

  /** A series that keeps the running invariant is fixed by its `daily_clones` column. */
  lemma RunningDeterminedByDaily(c1: map<string, CumEntry>, c2: map<string, CumEntry>)
    requires RunningInvariant(c1) && RunningInvariant(c2)
    requires c1.Keys == c2.Keys
    requires forall d :: d in c1 ==> DailyOf(c1)[d] == DailyOf(c2)[d]
    ensures c1 == c2
  {
    SameDaily(c1, c2);
    forall d | d in c1
      ensures c1[d] == c2[d]
    {
      SameRunningEntry(c1, c2, d);
    }
  }

  lemma SameDaily(c1: map<string, CumEntry>, c2: map<string, CumEntry>)
    requires c1.Keys == c2.Keys
    requires forall d :: d in c1 ==> DailyOf(c1)[d] == DailyOf(c2)[d]
    ensures DailyOf(c1) == DailyOf(c2)
  {
    var f1 := DailyOf(c1);
    var f2 := DailyOf(c2);
    assert f1.Keys == f2.Keys;
    assert forall d :: d in f1 ==> f1[d] == f2[d];
  }

  lemma SameRunningEntry(c1: map<string, CumEntry>, c2: map<string, CumEntry>, d: string)
    requires RunningInvariant(c1) && RunningInvariant(c2)
    requires c1.Keys == c2.Keys && DailyOf(c1) == DailyOf(c2)
    requires d in c1
    ensures c1[d] == c2[d]
  {
    var f := DailyOf(c1);
    var ks := SortedKeys(c1.Keys);
    assert c1[d].totalClones == TotalThrough(f, ks, d);
    assert c2[d].totalClones == TotalThrough(f, ks, d);
    assert c1[d].dailyClones == f[d] == c2[d].dailyClones;
  }

  /** The default store `load_data` starts from already satisfies the invariants. */
  lemma EmptyStoreConsistent()
    ensures Consistent(EmptyStore())
  {
    assert AllDates(map[]) == {};
  }

  /** Rebuilding twice gives what rebuilding once gives. */
  lemma RecomputeIdempotent(store: Store)
    ensures RecomputeCumulative(RecomputeCumulative(store)) == RecomputeCumulative(store)
  {
  }

  lemma {:induction false} SumOverReposNonNegative(repos: Repositories, names: seq<string>, date: string)
    requires CountsNonNegative(repos)
    ensures SumOverRepos(repos, names, date) >= 0
  {
    if names != [] {
      SumOverReposNonNegative(repos, names[1..], date);
    }
  }

  /**
   With non-negative counts, `total_clones` never decreases along the dates
   of a consistent store.
   */
  lemma TotalsNondecreasing(store: Store, d1: string, d2: string)
    requires Consistent(store)
    requires CountsNonNegative(store.repositories)
    requires d1 in store.cumulative && d2 in store.cumulative
    requires LessEq(d1, d2)
    ensures store.cumulative[d1].totalClones <= store.cumulative[d2].totalClones
  {
    var cum := store.cumulative;
    forall d | d in DailyOf(cum)
      ensures DailyOf(cum)[d] >= 0
    {
      SumOverReposNonNegative(store.repositories, SortedKeys(store.repositories.Keys), d);
    }
    TotalThroughMonotone(DailyOf(cum), SortedKeys(cum.Keys), d1, d2);
  }

  /** At the latest date, `total_clones` is the sum of every date's `daily_clones`. */
  lemma LatestTotalIsSumOfDaily(cum: map<string, CumEntry>)
    requires RunningInvariant(cum)
    requires cum.Keys != {}
    ensures cum[GreatestKey(cum.Keys)].totalClones == Total(DailyOf(cum), SortedKeys(cum.Keys))
  {
    var f := DailyOf(cum);
    var ks := SortedKeys(cum.Keys);
    var g := GreatestKey(cum.Keys);
    assert cum[g].totalClones == TotalThrough(f, ks, g);
    SortedKeysUpTo(cum.Keys);
    TotalThroughAll(f, ks, g);
  }
}

=== FILE: clone_data.dfy ===
/**
 The entities of the clone tracker's data file: per-day counters, the
 repositories' dated records, the cumulative series and the store holding
 them, plus the sample shape the traffic endpoint returns.
 */
module CloneData {
  import opened Wrappers

  /** One day's `{count, uniques}` for one repository. */
  datatype DayStat = DayStat(count: int, uniques: int)

  /** One element of the traffic endpoint's `clones` list. */
  datatype Sample = Sample(timestamp: string, count: int, uniques: int) {
    /** The record this sample would be stored as. */
    function Stat(): DayStat {
      DayStat(count, uniques)
    }
  }

  /** A repository's `daily_clones`: date key (`YYYY-MM-DD`) to counters. */
  type Daily = map<string, DayStat>

  /** The store's `repositories`: repository name to its dated record. */
  type Repositories = map<string, Daily>

  /** One date of the store's `cumulative` series. */
  datatype CumEntry = CumEntry(totalClones: int, dailyClones: int)

  datatype Store = Store(
    repositories: Repositories,
    cumulative: map<string, CumEntry>,
    lastUpdated: Option<string>)

  /** The store `load_data` starts from when there is no usable data file. */
  function EmptyStore(): Store {
    Store(map[], map[], None)
  }

  /** A record's counts, date by date. */
  function Counts(daily: Daily): (f: map<string, int>)
    ensures f.Keys == daily.Keys
    ensures forall d :: d in daily ==> f[d] == daily[d].count
  {
    map d | d in daily :: daily[d].count
  }

  /** Every stored count is non-negative, as the traffic endpoint reports them. */
  predicate CountsNonNegative(repos: Repositories) {
    forall n, d :: n in repos && d in repos[n] ==> repos[n][d].count >= 0
  }
}

=== FILE: collector.dfy ===
/**
 The collector's merge of fetched clone samples into the store
 (`CloneTracker.process_repository`). A sample for a new date is inserted; a
 sample for a stored date replaces the whole stored record only when its
 count is strictly greater.
 */
module Collector {
  import opened Wrappers
  import opened CloneData

  /** A timestamp's date key is its first ten characters (`YYYY-MM-DD`). */
  const DateKeyLength := 10

  /** `timestamp[:10]`, which is the whole string when it is shorter. */
  function DateKey(timestamp: string): (d: string)
    ensures d <= timestamp
    ensures |d| == if |timestamp| < DateKeyLength then |timestamp| else DateKeyLength
  {
    if |timestamp| <= DateKeyLength then timestamp else timestamp[..DateKeyLength]
  }

  function Max(a: int, b: int): int {
    if a < b then b else a
  }

  /** The date keys a batch of samples touches. */
  function DatesOf(samples: seq<Sample>): set<string> {
    set s | s in samples :: DateKey(s.timestamp)
  }

  /** One iteration of the merge loop. */
  function MergeSample(daily: Daily, s: Sample): (r: Daily)
    ensures r.Keys == daily.Keys + {DateKey(s.timestamp)}
    ensures forall d :: d in daily && d != DateKey(s.timestamp) ==> r[d] == daily[d]
    ensures var d := DateKey(s.timestamp);
      && (d !in daily ==> r[d] == s.Stat())
      && (d in daily ==> r[d].count == Max(daily[d].count, s.count))
      && (d in daily ==> r[d] == daily[d] || r[d] == s.Stat())
      && (d in daily && s.count <= daily[d].count ==> r == daily)
  {
    var d := DateKey(s.timestamp);
    if d !in daily || s.count > daily[d].count then daily[d := s.Stat()] else daily
  }

  /**
   The merge loop over a fetched batch, sample by sample in order: the
   merged record holds the stored dates and the batch's dates, no others.
   */
  function MergeSamples(daily: Daily, samples: seq<Sample>): (r: Daily)
    ensures r.Keys == daily.Keys + DatesOf(samples)
    decreases |samples|
  {
    if samples == [] then daily
    else
      DatesOfCons(samples);
      MergeSamples(MergeSample(daily, samples[0]), samples[1..])
  }

  lemma DatesOfCons(samples: seq<Sample>)
    requires samples != []
    ensures DatesOf(samples) == {DateKey(samples[0].timestamp)} + DatesOf(samples[1..])
  {
    assert forall s :: s in samples <==> s == samples[0] || s in samples[1..];
  }

  /** A stored date the batch does not mention keeps its record. */
  lemma {:induction false} MergeSamplesUntouched(daily: Daily, samples: seq<Sample>, d: string)
    requires d in daily && d !in DatesOf(samples)
    ensures d in MergeSamples(daily, samples)
    ensures MergeSamples(daily, samples)[d] == daily[d]
    decreases |samples|
  {
    if samples != [] {
      DatesOfCons(samples);
      MergeSamplesUntouched(MergeSample(daily, samples[0]), samples[1..], d);
    }
  }

  /**
   A stored date whose samples in the batch are all no larger than its count
   keeps its record, uniques included: only a strictly greater count
   replaces it, whatever the batch does to other dates.
   */
  lemma {:induction false} MergeSamplesKeepsUnraised(daily: Daily, samples: seq<Sample>, d: string)
    requires d in daily
    requires forall s :: s in samples && DateKey(s.timestamp) == d ==> s.count <= daily[d].count
    ensures d in MergeSamples(daily, samples)
    ensures MergeSamples(daily, samples)[d] == daily[d]
    decreases |samples|
  {
    if samples != [] {
      var first := MergeSample(daily, samples[0]);
      assert first[d] == daily[d];
      MergeSamplesKeepsUnraised(first, samples[1..], d);
    }
  }

  /** A stored count never decreases. */
  lemma {:induction false} MergeSamplesNeverLowers(daily: Daily, samples: seq<Sample>, d: string)
    requires d in daily
    ensures d in MergeSamples(daily, samples)
    ensures daily[d].count <= MergeSamples(daily, samples)[d].count
    decreases |samples|
  {
    if samples != [] {
      MergeSamplesNeverLowers(MergeSample(daily, samples[0]), samples[1..], d);
    }
  }

  /** After the merge, every sample's count is dominated at its date. */
  lemma {:induction false} MergeSamplesDominates(daily: Daily, samples: seq<Sample>, s: Sample)
    requires s in samples
    ensures DateKey(s.timestamp) in MergeSamples(daily, samples)
    ensures s.count <= MergeSamples(daily, samples)[DateKey(s.timestamp)].count
    decreases |samples|
  {
    var first := MergeSample(daily, samples[0]);
    if s == samples[0] {
      MergeSamplesNeverLowers(first, samples[1..], DateKey(s.timestamp));
    } else {
      MergeSamplesDominates(first, samples[1..], s);
    }
  }

  /**
   Every merged record is the stored record or, whole, the record of one of
   the batch's samples for that date; fields are never mixed.
   */
  lemma {:induction false} MergeSamplesProvenance(daily: Daily, samples: seq<Sample>, d: string)
    requires d in MergeSamples(daily, samples)
    ensures var r := MergeSamples(daily, samples);
      (d in daily && r[d] == daily[d]) ||
      (exists s :: s in samples && DateKey(s.timestamp) == d && r[d] == s.Stat())
    decreases |samples|
  {
    if samples != [] {
      var first := MergeSample(daily, samples[0]);
      MergeSamplesProvenance(first, samples[1..], d);
      var r := MergeSamples(daily, samples);
      if d in first && r[d] == first[d] && !(d in daily && r[d] == daily[d]) {
        assert r[d] == samples[0].Stat() && DateKey(samples[0].timestamp) == d;
      }
    }
  }

  /**
   The merge's contract in one place: the batch's dates are added, dates it
   does not mention keep their record, no stored count decreases, every
   sample is dominated, and each record comes whole from the store or from a
   sample for its date.
   */
  lemma MergeSamplesSpec(daily: Daily, samples: seq<Sample>)
    ensures var r := MergeSamples(daily, samples);
      && r.Keys == daily.Keys + DatesOf(samples)
      && (forall d :: d in daily && d !in DatesOf(samples) ==> r[d] == daily[d])
      && (forall d ::
            (&& d in daily
             && forall s :: s in samples && DateKey(s.timestamp) == d ==> s.count <= daily[d].count) ==>
              r[d] == daily[d])
      && (forall d :: d in daily ==> daily[d].count <= r[d].count)
      && (forall s :: s in samples ==> s.count <= r[DateKey(s.timestamp)].count)
      && (forall d :: d in r ==>
            (d in daily && r[d] == daily[d]) ||
            (exists s :: s in samples && DateKey(s.timestamp) == d && r[d] == s.Stat()))
  {
    var r := MergeSamples(daily, samples);
    forall d | d in daily && d !in DatesOf(samples)
      ensures r[d] == daily[d]
    {
      MergeSamplesUntouched(daily, samples, d);
    }
    forall d | d in daily &&
               (forall s :: s in samples && DateKey(s.timestamp) == d ==> s.count <= daily[d].count)
      ensures r[d] == daily[d]
    {
      MergeSamplesKeepsUnraised(daily, samples, d);
    }
    forall d | d in daily
      ensures daily[d].count <= r[d].count
    {
      MergeSamplesNeverLowers(daily, samples, d);
    }
    forall s | s in samples
      ensures s.count <= r[DateKey(s.timestamp)].count
    {
      MergeSamplesDominates(daily, samples, s);
    }
    forall d | d in r
      ensures (d in daily && r[d] == daily[d]) ||
              (exists s :: s in samples && DateKey(s.timestamp) == d && r[d] == s.Stat())
    {
      MergeSamplesProvenance(daily, samples, d);
    }
  }

  /** A batch every sample of which is dominated by the record leaves it unchanged. */
  lemma {:induction false} MergeDominated(daily: Daily, samples: seq<Sample>)
    requires forall s :: s in samples ==>
               DateKey(s.timestamp) in daily && s.count <= daily[DateKey(s.timestamp)].count
    ensures MergeSamples(daily, samples) == daily
    decreases |samples|
  {
    if samples != [] {
      assert MergeSample(daily, samples[0]) == daily;
      MergeDominated(daily, samples[1..]);
    }
  }

  /** Merging the same batch a second time changes nothing. */
  lemma MergeSamplesIdempotent(daily: Daily, samples: seq<Sample>)
    ensures MergeSamples(MergeSamples(daily, samples), samples) == MergeSamples(daily, samples)
  {
    MergeSamplesSpec(daily, samples);
    MergeDominated(MergeSamples(daily, samples), samples);
  }

  /**
   Two samples for the same date, merged in either order, leave the larger
   count; when their counts differ the two orders give the same record.
   */
  lemma MergeOrderIndependent(daily: Daily, s1: Sample, s2: Sample)
    requires DateKey(s1.timestamp) == DateKey(s2.timestamp)
    ensures var d := DateKey(s1.timestamp);
      var a := MergeSample(MergeSample(daily, s1), s2);
      var b := MergeSample(MergeSample(daily, s2), s1);
      && a[d].count == b[d].count
      && a[d].count == (if d in daily then Max(daily[d].count, Max(s1.count, s2.count)) else Max(s1.count, s2.count))
      && (s1.count != s2.count ==> a == b)
  {
  }

  /** Samples for different dates commute. */
  lemma MergeDistinctDatesCommute(daily: Daily, s1: Sample, s2: Sample)
    requires DateKey(s1.timestamp) != DateKey(s2.timestamp)
    ensures MergeSample(MergeSample(daily, s1), s2) == MergeSample(MergeSample(daily, s2), s1)
  {
  }

  /** Every stored (repository, date) survives and its count never decreases. */
  predicate Grows(before: Repositories, after: Repositories) {
    forall n :: n in before ==>
      n in after && forall d :: d in before[n] ==> d in after[n] && before[n][d].count <= after[n][d].count
  }

  lemma GrowsTransitive(a: Repositories, b: Repositories, c: Repositories)
    requires Grows(a, b) && Grows(b, c)
    ensures Grows(a, c)
  {
  }

  /**
   The repository map after merging a batch into one repository's record,
   which starts empty when the repository is new.
   */
  function MergeInto(repos: Repositories, name: string, samples: seq<Sample>): (r: Repositories)
    ensures r.Keys == repos.Keys + {name}
    ensures forall n :: n in repos && n != name ==> r[n] == repos[n]
    ensures Grows(repos, r)
    ensures var record := if name in repos then repos[name] else map[];
      && r[name].Keys == record.Keys + DatesOf(samples)
      && (forall d :: d in record && d !in DatesOf(samples) ==> r[name][d] == record[d])
      && (forall d ::
            (&& d in record
             && forall s :: s in samples && DateKey(s.timestamp) == d ==> s.count <= record[d].count) ==>
              r[name][d] == record[d])
      && (forall s :: s in samples ==> s.count <= r[name][DateKey(s.timestamp)].count)
      && (forall d :: d in r[name] ==>
            (d in record && r[name][d] == record[d]) ||
            (exists s :: s in samples && DateKey(s.timestamp) == d && r[name][d] == s.Stat()))
  {
    var record := if name in repos then repos[name] else map[];
    MergeSamplesSpec(record, samples);
    repos[name := MergeSamples(record, samples)]
  }

  /** A batch dominated by the stored record leaves the whole repository map as it was. */
  lemma MergeIntoDominated(repos: Repositories, name: string, samples: seq<Sample>)
    ensures name in repos &&
            (forall s :: s in samples ==>
               DateKey(s.timestamp) in repos[name] && s.count <= repos[name][DateKey(s.timestamp)].count) ==>
              MergeInto(repos, name, samples) == repos
  {
    if name in repos &&
       (forall s :: s in samples ==>
          DateKey(s.timestamp) in repos[name] && s.count <= repos[name][DateKey(s.timestamp)].count) {
      MergeDominated(repos[name], samples);
      assert MergeInto(repos, name, samples) == repos[name := repos[name]];
    }
  }

  /**
   `process_repository` given the fetch result: `None` stands for a failed
   request, an empty response or one without a `clones` list.
   */
  function ProcessRepository(store: Store, name: string, fetched: Option<seq<Sample>>): (r: Store)
    ensures r.cumulative == store.cumulative && r.lastUpdated == store.lastUpdated
    ensures fetched.None? ==> r == store
    ensures fetched.Some? ==> r.repositories.Keys == store.repositories.Keys + {name}
    ensures forall n :: n in store.repositories && n != name ==> r.repositories[n] == store.repositories[n]
    ensures Grows(store.repositories, r.repositories)
    ensures fetched.Some? ==>
              var record := if name in store.repositories then store.repositories[name] else map[];
              var merged := r.repositories[name];
              && merged.Keys == record.Keys + DatesOf(fetched.value)
              && (forall s :: s in fetched.value ==> s.count <= merged[DateKey(s.timestamp)].count)
              && (forall d :: d in merged ==>
                    (d in record && merged[d] == record[d]) ||
                    (exists s :: s in fetched.value && DateKey(s.timestamp) == d && merged[d] == s.Stat()))
    ensures fetched.Some? && name in store.repositories ==>
              forall d :: d in store.repositories[name] && d !in DatesOf(fetched.value) ==>
                r.repositories[name][d] == store.repositories[name][d]
    ensures fetched.Some? && name in store.repositories ==>
              forall d ::
                (&& d in store.repositories[name]
                 && forall s :: s in fetched.value && DateKey(s.timestamp) == d ==>
                      s.count <= store.repositories[name][d].count) ==>
                  r.repositories[name][d] == store.repositories[name][d]
    ensures fetched == Some([]) ==>
              r.repositories[name] == if name in store.repositories then store.repositories[name] else map[]
    ensures fetched.Some? && name in store.repositories &&
            (forall s :: s in fetched.value ==>
               DateKey(s.timestamp) in store.repositories[name] &&
               s.count <= store.repositories[name][DateKey(s.timestamp)].count) ==>
              r == store
  {
    match fetched
    case None => store
    case Some(samples) =>
      MergeIntoDominated(store.repositories, name, samples);
      store.(repositories := MergeInto(store.repositories, name, samples))
  }
}

=== FILE: keys.dfy ===
/**
 Date keys and repository names are Python `str` values. This module gives
 them Python's `<` (lexicographic by code point, a proper prefix first), and
 the sorted key sequence that `sorted(d.keys())` and `max(d.keys())` produce.
 */
module Keys {

  /** Python's `a < b` on `str`. */
  predicate Less(a: string, b: string)
    decreases |a|
  {
    if |a| == 0 then |b| != 0
    else if |b| == 0 then false
    else if a[0] != b[0] then a[0] < b[0]
    else Less(a[1..], b[1..])
  }

  /** Python's `a <= b` on `str`. */
  predicate LessEq(a: string, b: string) {
    a == b || Less(a, b)
  }

  lemma {:induction false} LessIrreflexive(a: string)
    ensures !Less(a, a)
    decreases |a|
  {
    if |a| > 0 {
      LessIrreflexive(a[1..]);
    }
  }

  lemma {:induction false} LessAsymmetric(a: string, b: string)
    requires Less(a, b)
    ensures !Less(b, a)
    decreases |a|
  {
    if |a| > 0 && |b| > 0 && a[0] == b[0] {
      LessAsymmetric(a[1..], b[1..]);
    }
  }

  lemma {:induction false} LessTransitive(a: string, b: string, c: string)
    requires Less(a, b) && Less(b, c)
    ensures Less(a, c)
    decreases |a|
  {
    if |a| > 0 && a[0] == b[0] && b[0] == c[0] {
      LessTransitive(a[1..], b[1..], c[1..]);
    }
  }

  lemma {:induction false} LessTotal(a: string, b: string)
    ensures Less(a, b) || a == b || Less(b, a)
    decreases |a|
  {
    if |a| > 0 && |b| > 0 && a[0] == b[0] {
      LessTotal(a[1..], b[1..]);
      if a[1..] == b[1..] {
        assert a == [a[0]] + a[1..];
        assert b == [b[0]] + b[1..];
      }
    }
  }

  /** `Less` is a strict total order on strings. */
  lemma LessIsStrictTotalOrder()
    ensures forall a: string :: !Less(a, a)
    ensures forall a: string, b: string :: Less(a, b) ==> !Less(b, a)
    ensures forall a: string, b: string, c: string :: Less(a, b) && Less(b, c) ==> Less(a, c)
    ensures forall a: string, b: string :: Less(a, b) || a == b || Less(b, a)
  {
    forall a: string
      ensures !Less(a, a)
    {
      LessIrreflexive(a);
    }
    forall a: string, b: string | Less(a, b)
      ensures !Less(b, a)
    {
      LessAsymmetric(a, b);
    }
    forall a: string, b: string, c: string | Less(a, b) && Less(b, c)
      ensures Less(a, c)
    {
      LessTransitive(a, b, c);
    }
    forall a: string, b: string
      ensures Less(a, b) || a == b || Less(b, a)
    {
      LessTotal(a, b);
    }
  }

  /** Every finite non-empty set of strings has a least element. */
  lemma {:induction false} LeastExists(s: set<string>)
    requires s != {}
    ensures exists m :: m in s && IsLeast(m, s)
    decreases s
  {
    var x :| x in s;
    if s == {x} {
      assert IsLeast(x, s);
    } else {
      var rest := s - {x};
      LeastExists(rest);
      var m :| m in rest && IsLeast(m, rest);
      LessTotal(x, m);
      if Less(x, m) {
        forall y | y in s
          ensures LessEq(x, y)
        {
          if y != x {
            assert y in rest;
            if y != m {
              LessTransitive(x, m, y);
            }
          }
        }
        assert IsLeast(x, s);
      } else {
        forall y | y in s
          ensures LessEq(m, y)
        {
          if y != x {
            assert y in rest;
          }
        }
        assert IsLeast(m, s);
      }
    }
  }

  /** `m` is no greater than any element of `s`. */
  predicate IsLeast(m: string, s: set<string>) {
    forall x :: x in s ==> LessEq(m, x)
  }

  /** `min(s)` for a non-empty set of strings. */
  function LeastKey(s: set<string>): (m: string)
    requires s != {}
    ensures m in s
    ensures forall x :: x in s ==> LessEq(m, x)
  {
    LeastExists(s);
    LessIsStrictTotalOrder();
    var m :| m in s && IsLeast(m, s);
    m
  }

  /** No element of `s` occurs twice. */
  predicate Distinct<T(==)>(s: seq<T>) {
    s == [] || (s[0] !in s[1..] && Distinct(s[1..]))
  }

  /** Each element of `s` is strictly less than the next. */
  predicate Increasing(s: seq<string>) {
    |s| <= 1 || (Less(s[0], s[1]) && Increasing(s[1..]))
  }

  /** In an increasing sequence every element is less than each later one. */
  lemma {:induction false} IncreasingLess(s: seq<string>, i: nat, j: nat)
    requires Increasing(s) && i < j < |s|
    ensures Less(s[i], s[j])
  {
    if i > 0 {
      IncreasingLess(s[1..], i - 1, j - 1);
    } else if j > 1 {
      IncreasingLess(s[1..], 0, j - 1);
      LessTransitive(s[0], s[1], s[j]);
    }
  }

  lemma IncreasingLessEq(s: seq<string>, i: nat, j: nat)
    requires Increasing(s) && i <= j < |s|
    ensures LessEq(s[i], s[j])
  {
    if i < j {
      IncreasingLess(s, i, j);
    }
  }

  /** `sorted(s)`: the elements of `s` in ascending order. */
  function SortedKeys(s: set<string>): (r: seq<string>)
    ensures |r| == |s|
    ensures forall k :: k in r <==> k in s
    ensures Distinct(r)
    decreases s
  {
    if s == {} then []
    else
      var m := LeastKey(s);
      var rest := SortedKeys(s - {m});
      var r := [m] + rest;
      assert forall k :: k in r <==> k in s by {
        assert forall k :: k in r <==> k == m || k in rest;
      }
      r
  }

  /** The sorted keys ascend strictly. */
  lemma {:induction false} SortedKeysOrdered(s: set<string>)
    ensures Increasing(SortedKeys(s))
    decreases s
  {
    if s != {} {
      var m := LeastKey(s);
      var rest := SortedKeys(s - {m});
      SortedKeysOrdered(s - {m});
      var r := SortedKeys(s);
      assert r == [m] + rest;
      if rest != [] {
        assert rest[0] in s - {m};
      }
      assert r[1..] == rest;
    }
  }

  /** `max(s)` for a non-empty set of strings: the last sorted key. */
  function GreatestKey(s: set<string>): (g: string)
    requires s != {}
    ensures g in s
    ensures forall x :: x in s ==> LessEq(x, g)
  {
    var r := SortedKeys(s);
    assert forall x :: x in s ==> LessEq(x, r[|r| - 1]) by {
      SortedKeysOrdered(s);
      forall x | x in s
        ensures LessEq(x, r[|r| - 1])
      {
        var i :| 0 <= i < |r| && r[i] == x;
        IncreasingLessEq(r, i, |r| - 1);
      }
    }
    r[|r| - 1]
  }

  /** Every sorted key is at most the greatest one. */
  lemma SortedKeysUpTo(s: set<string>)
    requires s != {}
    ensures forall i :: 0 <= i < |SortedKeys(s)| ==> LessEq(SortedKeys(s)[i], GreatestKey(s))
  {
    var ks := SortedKeys(s);
    forall i | 0 <= i < |ks|
      ensures LessEq(ks[i], GreatestKey(s))
    {
      assert ks[i] in s;
    }
  }

  /** A sequence without repetitions has as many elements as its set. */
  lemma {:induction false} DistinctCardinality<T>(s: seq<T>)
    requires Distinct(s)
    ensures |set x | x in s| == |s|
  {
    if s != [] {
      DistinctCardinality(s[1..]);
      var tail := set x | x in s[1..];
      assert s[0] !in tail;
      assert (set x | x in s) == {s[0]} + tail;
    }
  }

  /** A proper subset is smaller than its superset. */
  lemma SubsetStrictCardinality<T>(a: set<T>, b: set<T>)
    requires a <= b && a != b
    ensures |a| < |b|
  {
    var x :| x in b && x !in a;
    SubsetCardinality(a, b - {x});
  }

  /** A subset is no larger than its superset. */
  lemma {:induction false} SubsetCardinality<T>(a: set<T>, b: set<T>)
    requires a <= b
    ensures |a| <= |b|
    decreases a
  {
    if a != {} {
      var x :| x in a;
      SubsetCardinality(a - {x}, b - {x});
    }
  }
}

=== FILE: ranking.dfy ===
/**
 The visualizer's ranking of repositories: each repository's total, the
 repositories with a positive total, and their stable descending sort cut to
 the top N.
 */
module Ranking {
  import opened Keys
  import opened Sums
  import opened CloneData

  /** How many repositories the breakdown chart shows. */
  const BreakdownCount := 15
  /** How many repositories the trend chart shows. */
  const TrendCount := 5
  /** How many repositories the summary lists. */
  const SummaryCount := 10

  function Min(a: int, b: int): int {
    if a < b then a else b
  }

  /** `sum(day['count'] for day in daily.values())`. */
  function RepoTotal(daily: Daily): (t: int)
    ensures daily.Keys == {} ==> t == 0
    ensures (forall d :: d in daily ==> daily[d].count >= 0) ==> t >= 0
  {
    var ks := SortedKeys(daily.Keys);
    assert (forall d :: d in daily ==> daily[d].count >= 0) ==> Total(Counts(daily), ks) >= 0 by {
      if forall d :: d in daily ==> daily[d].count >= 0 {
        TotalNonNegative(Counts(daily), ks);
      }
    }
    Total(Counts(daily), ks)
  }

  /** One `(name, total)` item of `repo_totals`. */
  datatype Ranked = Ranked(name: string, clones: int)

  function Names(rs: seq<Ranked>): (ns: seq<string>)
    ensures |ns| == |rs|
    ensures forall i :: 0 <= i < |rs| ==> ns[i] == rs[i].name
  {
    if rs == [] then [] else [rs[0].name] + Names(rs[1..])
  }

  /** `order` lists the keys of `repos`, each once, as a dict iterates them. */
  predicate Enumerates(order: seq<string>, repos: Repositories) {
    && Distinct(order)
    && (forall n :: n in order ==> n in repos)
    && (forall n :: n in repos ==> n in order)
  }

  /** The repositories whose total is positive. */
  function PositiveRepos(repos: Repositories): set<string> {
    set n | n in repos && RepoTotal(repos[n]) > 0
  }

  /** Every repository, in iteration order, with its total. */
  function AllTotals(repos: Repositories, order: seq<string>): (r: seq<Ranked>)
    requires forall n :: n in order ==> n in repos
    ensures |r| == |order|
    ensures forall i :: 0 <= i < |order| ==> r[i] == Ranked(order[i], RepoTotal(repos[order[i]]))
  {
    if order == [] then [] else [Ranked(order[0], RepoTotal(repos[order[0]]))] + AllTotals(repos, order[1..])
  }

  /** The items with a positive total, in their order (the `if total > 0` test). */
  function Positive(items: seq<Ranked>): (r: seq<Ranked>)
    ensures |r| <= |items|
    ensures forall e :: e in r <==> e in items && e.clones > 0
  {
    if items == [] then []
    else if items[0].clones > 0 then [items[0]] + Positive(items[1..])
    else Positive(items[1..])
  }

  /** Filtering keeps, for each positive total, the items with that total in their order. */
  lemma {:induction false} PositiveKeepsTies(items: seq<Ranked>, t: int)
    requires t > 0
    ensures WithClones(Positive(items), t) == WithClones(items, t)
  {
    if items != [] {
      PositiveKeepsTies(items[1..], t);
      if items[0].clones > 0 {
        assert ([items[0]] + Positive(items[1..]))[1..] == Positive(items[1..]);
      }
    }
  }

  /**
   `repo_totals`: in iteration order, each repository with its total, leaving
   out those whose total is not positive.
   */
  function PositiveTotals(repos: Repositories, order: seq<string>): (r: seq<Ranked>)
    requires forall n :: n in order ==> n in repos
    ensures |r| <= |order|
    ensures forall e :: e in r ==> e.name in repos && e.clones == RepoTotal(repos[e.name]) && e.clones > 0
    ensures forall n :: n in order && RepoTotal(repos[n]) > 0 ==> Ranked(n, RepoTotal(repos[n])) in r
  {
    var all := AllTotals(repos, order);
    assert forall e :: e in all ==> e.name in repos && e.clones == RepoTotal(repos[e.name]);
    assert forall n :: n in order ==> Ranked(n, RepoTotal(repos[n])) in all by {
      forall n | n in order
        ensures Ranked(n, RepoTotal(repos[n])) in all
      {
        var i :| 0 <= i < |order| && order[i] == n;
        assert all[i] == Ranked(n, RepoTotal(repos[n]));
      }
    }
    Positive(all)
  }

  /** Iterating each repository once lists each at most once. */
  lemma {:induction false} PositiveDistinctNames(items: seq<Ranked>)
    requires Distinct(Names(items))
    ensures Distinct(Names(Positive(items)))
  {
    if items != [] {
      var ns := Names(items);
      assert Names(items[1..]) == ns[1..];
      PositiveDistinctNames(items[1..]);
      if items[0].clones > 0 {
        var rest := Positive(items[1..]);
        assert items[0].name !in Names(rest) by {
          forall k | 0 <= k < |rest|
            ensures Names(rest)[k] != items[0].name
          {
            assert rest[k] in items[1..];
            var j :| 0 <= j < |items[1..]| && items[1..][j] == rest[k];
            assert ns[1..][j] == rest[k].name;
          }
        }
        assert Names([items[0]] + rest) == [items[0].name] + Names(rest);
        assert ([items[0].name] + Names(rest))[1..] == Names(rest);
      }
    }
  }

  /** Non-increasing by total. */
  predicate Descending(rs: seq<Ranked>) {
    forall i, j :: 0 <= i < j < |rs| ==> rs[j].clones <= rs[i].clones
  }

  /** The items whose total is `t`, in their order. */
  function WithClones(rs: seq<Ranked>, t: int): seq<Ranked> {
    if rs == [] then []
    else (if rs[0].clones == t then [rs[0]] else []) + WithClones(rs[1..], t)
  }

  /** Places `x` ahead of the first item of `ys` whose total is not above its own. */
  function Insert(x: Ranked, ys: seq<Ranked>): (r: seq<Ranked>)
    ensures |r| == |ys| + 1
    decreases |ys|
  {
    if ys == [] || ys[0].clones <= x.clones then [x] + ys
    else [ys[0]] + Insert(x, ys[1..])
  }

  /** Inserting adds exactly `x`. */
  lemma {:induction false} InsertElements(x: Ranked, ys: seq<Ranked>)
    ensures multiset(Insert(x, ys)) == multiset(ys) + multiset{x}
    decreases |ys|
  {
    if ys != [] && ys[0].clones > x.clones {
      InsertElements(x, ys[1..]);
      assert ys == [ys[0]] + ys[1..];
    }
  }

  /** No item's total is above `b`. */
  predicate Bounded(rs: seq<Ranked>, b: int) {
    forall k :: 0 <= k < |rs| ==> rs[k].clones <= b
  }

  lemma DescendingSplit(rs: seq<Ranked>)
    requires Descending(rs) && rs != []
    ensures Descending(rs[1..]) && Bounded(rs, rs[0].clones)
  {
    forall i, j | 0 <= i < j < |rs[1..]|
      ensures rs[1..][j].clones <= rs[1..][i].clones
    {
      assert rs[1..][i] == rs[i + 1] && rs[1..][j] == rs[j + 1];
    }
  }

  lemma DescendingCons(h: Ranked, rs: seq<Ranked>)
    requires Descending(rs) && Bounded(rs, h.clones)
    ensures Descending([h] + rs)
  {
    var r := [h] + rs;
    forall i, j | 0 <= i < j < |r|
      ensures r[j].clones <= r[i].clones
    {
      assert r[j] == rs[j - 1];
      if i > 0 {
        assert r[i] == rs[i - 1];
      }
    }
  }

  lemma {:induction false} InsertBounded(x: Ranked, ys: seq<Ranked>, b: int)
    requires x.clones <= b && Bounded(ys, b)
    ensures Bounded(Insert(x, ys), b)
    decreases |ys|
  {
    if ys != [] && ys[0].clones > x.clones {
      assert Bounded(ys[1..], b) by {
        forall k | 0 <= k < |ys[1..]|
          ensures ys[1..][k].clones <= b
        {
          assert ys[1..][k] == ys[k + 1];
        }
      }
      InsertBounded(x, ys[1..], b);
      var r := [ys[0]] + Insert(x, ys[1..]);
      forall k | 0 < k < |r|
        ensures r[k].clones <= b
      {
        assert r[k] == Insert(x, ys[1..])[k - 1];
      }
    } else {
      var r := [x] + ys;
      forall k | 0 < k < |r|
        ensures r[k].clones <= b
      {
        assert r[k] == ys[k - 1];
      }
    }
  }

  /** Inserting into a descending sequence keeps it descending. */
  lemma {:induction false} InsertDescending(x: Ranked, ys: seq<Ranked>)
    requires Descending(ys)
    ensures Descending(Insert(x, ys))
    decreases |ys|
  {
    if ys == [] {
    } else if ys[0].clones > x.clones {
      DescendingSplit(ys);
      InsertDescending(x, ys[1..]);
      InsertBounded(x, ys[1..], ys[0].clones);
      DescendingCons(ys[0], Insert(x, ys[1..]));
    } else {
      DescendingSplit(ys);
      DescendingCons(x, ys);
    }
  }

  /** `x` lands ahead of every item with its own total. */
  lemma {:induction false} InsertStable(x: Ranked, ys: seq<Ranked>, t: int)
    ensures WithClones(Insert(x, ys), t) == (if x.clones == t then [x] else []) + WithClones(ys, t)
    decreases |ys|
  {
    if ys == [] || ys[0].clones <= x.clones {
      WithClonesCons(x, ys, t);
    } else {
      var rest := Insert(x, ys[1..]);
      var hx: seq<Ranked> := if x.clones == t then [x] else [];
      var hy: seq<Ranked> := if ys[0].clones == t then [ys[0]] else [];
      InsertStable(x, ys[1..], t);
      WithClonesCons(ys[0], rest, t);
      WithClonesCons(ys[0], ys[1..], t);
      assert ys == [ys[0]] + ys[1..];
      assert hx == [] || hy == [];
    }
  }

  lemma WithClonesCons(h: Ranked, rs: seq<Ranked>, t: int)
    ensures WithClones([h] + rs, t) == (if h.clones == t then [h] else []) + WithClones(rs, t)
  {
    assert ([h] + rs)[1..] == rs;
  }

  /**
   `sorted(items, key=total, reverse=True)`: descending by total and a
   permutation of the input.
   */
  function SortDescending(xs: seq<Ranked>): (r: seq<Ranked>)
    ensures |r| == |xs|
    decreases |xs|
  {
    if xs == [] then [] else Insert(xs[0], SortDescending(xs[1..]))
  }

  /** The sort's output is descending by total. */
  lemma {:induction false} SortDescendingOrdered(xs: seq<Ranked>)
    ensures Descending(SortDescending(xs))
    decreases |xs|
  {
    if xs != [] {
      SortDescendingOrdered(xs[1..]);
      InsertDescending(xs[0], SortDescending(xs[1..]));
    }
  }

  /** The sort's output is a permutation of its input. */
  lemma {:induction false} SortDescendingElements(xs: seq<Ranked>)
    ensures multiset(SortDescending(xs)) == multiset(xs)
    decreases |xs|
  {
    if xs != [] {
      SortDescendingElements(xs[1..]);
      InsertElements(xs[0], SortDescending(xs[1..]));
      assert xs == [xs[0]] + xs[1..];
    }
  }

  /** The sort is stable: items with equal totals keep their input order. */
  lemma {:induction false} SortDescendingStable(xs: seq<Ranked>, t: int)
    ensures WithClones(SortDescending(xs), t) == WithClones(xs, t)
    decreases |xs|
  {
    if xs != [] {
      SortDescendingStable(xs[1..], t);
      InsertStable(xs[0], SortDescending(xs[1..]), t);
    }
  }

  /** `sorted(...)[:n]`: the first `n` items of the stable descending sort. */
  function Top(xs: seq<Ranked>, n: nat): (r: seq<Ranked>)
    ensures |r| == Min(n, |xs|)
    ensures Descending(r)
    ensures r <= SortDescending(xs)
  {
    var s := SortDescending(xs);
    SortDescendingOrdered(xs);
    s[..Min(n, |s|)]
  }

  /** Every item left out of the top `n` has a total no larger than any item kept. */
  lemma TopDominates(xs: seq<Ranked>, n: nat, e: Ranked, i: nat)
    requires e in xs && e !in Top(xs, n)
    requires i < |Top(xs, n)|
    ensures e.clones <= Top(xs, n)[i].clones
  {
    var s := SortDescending(xs);
    var r := Top(xs, n);
    SortDescendingOrdered(xs);
    SortDescendingElements(xs);
    assert e in multiset(xs);
    assert e in s;
    var j :| 0 <= j < |s| && s[j] == e;
    assert forall k :: 0 <= k < |r| ==> r[k] == s[k];
    assert j >= |r|;
  }

  /**
   The ranking the charts and the summary show: the repositories with a
   positive total, by descending total, ties in iteration order, cut to `n`.
   */
  function TopRepositories(repos: Repositories, order: seq<string>, n: nat): (r: seq<Ranked>)
    requires Enumerates(order, repos)
    ensures |r| <= n
    ensures Descending(r)
    ensures forall e :: e in r ==> e.name in repos && e.clones == RepoTotal(repos[e.name]) && e.clones > 0
    ensures r <= SortDescending(PositiveTotals(repos, order))
  {
    var xs := PositiveTotals(repos, order);
    var r := Top(xs, n);
    SortDescendingElements(xs);
    assert forall e :: e in r ==> e in xs by {
      forall e | e in r
        ensures e in xs
      {
        assert e in SortDescending(xs);
        assert e in multiset(SortDescending(xs));
      }
    }
    r
  }

  /** The candidates' names are exactly the repositories with a positive total. */
  lemma PositiveTotalsNameSet(repos: Repositories, order: seq<string>)
    requires Enumerates(order, repos)
    ensures (set m | m in Names(PositiveTotals(repos, order))) == PositiveRepos(repos)
  {
    var ns := Names(PositiveTotals(repos, order));
    var pos := PositiveRepos(repos);
    forall m
      ensures m in ns <==> m in pos
    {
      if m in ns {
        CandidateIsPositive(repos, order, m);
      }
      if m in pos {
        PositiveIsCandidate(repos, order, m);
      }
    }
  }

  lemma CandidateIsPositive(repos: Repositories, order: seq<string>, m: string)
    requires Enumerates(order, repos)
    requires m in Names(PositiveTotals(repos, order))
    ensures m in PositiveRepos(repos)
  {
    var xs := PositiveTotals(repos, order);
    var k :| 0 <= k < |xs| && Names(xs)[k] == m;
    assert xs[k] in xs;
  }

  lemma PositiveIsCandidate(repos: Repositories, order: seq<string>, m: string)
    requires Enumerates(order, repos)
    requires m in PositiveRepos(repos)
    ensures m in Names(PositiveTotals(repos, order))
  {
    var xs := PositiveTotals(repos, order);
    var e := Ranked(m, RepoTotal(repos[m]));
    assert e in xs;
    var k :| 0 <= k < |xs| && xs[k] == e;
    assert Names(xs)[k] == m;
  }

  /** With repositories iterated once each, the candidates are exactly the positive ones. */
  lemma PositiveTotalsCount(repos: Repositories, order: seq<string>)
    requires Enumerates(order, repos)
    ensures |PositiveTotals(repos, order)| == |PositiveRepos(repos)|
    ensures Distinct(Names(PositiveTotals(repos, order)))
  {
    var all := AllTotals(repos, order);
    assert Names(all) == order;
    PositiveDistinctNames(all);
    assert PositiveTotals(repos, order) == Positive(all);
    PositiveTotalsNameSet(repos, order);
    DistinctCardinality(Names(PositiveTotals(repos, order)));
  }

  /** The ranking has `min(n, number of repositories with a positive total)` entries. */
  lemma TopRepositoriesLength(repos: Repositories, order: seq<string>, n: nat)
    requires Enumerates(order, repos)
    ensures |TopRepositories(repos, order, n)| == Min(n, |PositiveRepos(repos)|)
  {
    PositiveTotalsCount(repos, order);
  }

  /**
   A repository with a positive total that is not ranked has a total no larger
   than any ranked one.
   */
  lemma TopRepositoriesDominate(repos: Repositories, order: seq<string>, n: nat, m: string, i: nat)
    requires Enumerates(order, repos)
    requires m in PositiveRepos(repos)
    requires m !in Names(TopRepositories(repos, order, n))
    requires i < |TopRepositories(repos, order, n)|
    ensures RepoTotal(repos[m]) <= TopRepositories(repos, order, n)[i].clones
  {
    var xs := PositiveTotals(repos, order);
    var r := TopRepositories(repos, order, n);
    var e := Ranked(m, RepoTotal(repos[m]));
    assert e in xs;
    TopDominates(xs, n, e, i);
  }

  /**
   `r` heads the ranking: it is a prefix of the stable descending sort of the
   positive totals, and no repository with a positive total that `r` leaves
   out has a larger total than an entry of `r`.
   */
  predicate LeadsRanking(r: seq<Ranked>, repos: Repositories, order: seq<string>)
    requires Enumerates(order, repos)
  {
    && r <= SortDescending(PositiveTotals(repos, order))
    && forall m, i :: m in PositiveRepos(repos) && m !in Names(r) && 0 <= i < |r| ==> RepoTotal(repos[m]) <= r[i].clones
  }

  /** The top `n` head the ranking. */
  lemma TopRepositoriesLead(repos: Repositories, order: seq<string>, n: nat)
    requires Enumerates(order, repos)
    ensures LeadsRanking(TopRepositories(repos, order, n), repos, order)
  {
    var r := TopRepositories(repos, order, n);
    forall m, i | m in PositiveRepos(repos) && m !in Names(r) && 0 <= i < |r|
      ensures RepoTotal(repos[m]) <= r[i].clones
    {
      TopRepositoriesDominate(repos, order, n, m, i);
    }
  }

  /**
   The ranking is the head of the full stable sort, and in that sort the
   repositories sharing a positive total appear in iteration order.
   */
  lemma TopRepositoriesTies(repos: Repositories, order: seq<string>, n: nat, t: int)
    requires Enumerates(order, repos)
    requires t > 0
    ensures TopRepositories(repos, order, n) <= SortDescending(PositiveTotals(repos, order))
    ensures WithClones(SortDescending(PositiveTotals(repos, order)), t) == WithClones(AllTotals(repos, order), t)
  {
    SortDescendingStable(PositiveTotals(repos, order), t);
    PositiveKeepsTies(AllTotals(repos, order), t);
  }

  /** The names of ranked items with their totals are repositories with a positive total. */
  lemma RankedNamesPositive(repos: Repositories, ranked: seq<Ranked>)
    requires forall e :: e in ranked ==> e.name in repos && e.clones == RepoTotal(repos[e.name]) && e.clones > 0
    ensures forall n :: n in Names(ranked) ==> n in repos && RepoTotal(repos[n]) > 0
  {
    forall n | n in Names(ranked)
      ensures n in repos && RepoTotal(repos[n]) > 0
    {
      var i :| 0 <= i < |ranked| && Names(ranked)[i] == n;
      assert ranked[i] in ranked;
    }
  }
}

=== FILE: report.dfy ===
/**
 What the visualizer derives from a loaded store before drawing: the series
 of the two cumulative charts, the top-15 breakdown, the top-5 trend lines
 and the summary's integers.
 */
module Report {
  import opened Wrappers
  import opened Keys
  import opened Sums
  import opened CloneData
  import opened Aggregate
  import opened Ranking

  /** The sorted dates of the cumulative series, the charts' x axis. */
  function ChartDates(cum: map<string, CumEntry>): (ds: seq<string>)
    ensures |ds| == |cum.Keys|
    ensures Increasing(ds)
    ensures forall d :: d in ds <==> d in cum
  {
    SortedKeysOrdered(cum.Keys);
    SortedKeys(cum.Keys)
  }

  /** The cumulative chart's y values, `total_clones` along the sorted dates. */
  function CumulativeSeries(cum: map<string, CumEntry>): seq<int>
  {
    var ds := ChartDates(cum);
    seq(|ds|, i requires 0 <= i < |ds| => cum[ds[i]].totalClones)
  }

  /** The daily chart's y values, `daily_clones` along the sorted dates. */
  function DailySeries(cum: map<string, CumEntry>): seq<int>
  {
    var ds := ChartDates(cum);
    seq(|ds|, i requires 0 <= i < |ds| => cum[ds[i]].dailyClones)
  }

  /** For a consistent store, each daily bar is the sum over repositories of that date's counts. */
  lemma DailySeriesSumsRepositories(store: Store)
    requires Consistent(store)
    ensures var ds := ChartDates(store.cumulative);
      var ys := DailySeries(store.cumulative);
      forall i :: 0 <= i < |ys| ==> ys[i] == DailySum(store.repositories, ds[i])
  {
    var ds := ChartDates(store.cumulative);
    forall i | 0 <= i < |ds|
      ensures ds[i] in store.cumulative
    {
      assert ds[i] in ds;
    }
  }

  /**
   For a consistent store with non-negative counts, the cumulative chart
   never falls.
   */
  lemma CumulativeSeriesNondecreasing(store: Store)
    requires Consistent(store)
    requires CountsNonNegative(store.repositories)
    ensures var ys := CumulativeSeries(store.cumulative);
      forall i, j :: 0 <= i <= j < |ys| ==> ys[i] <= ys[j]
  {
    var cum := store.cumulative;
    var ds := ChartDates(cum);
    var ys := CumulativeSeries(cum);
    forall i, j | 0 <= i <= j < |ys|
      ensures ys[i] <= ys[j]
    {
      CumulativePointsOrdered(store, i, j);
    }
  }

  lemma CumulativePointsOrdered(store: Store, i: nat, j: nat)
    requires Consistent(store)
    requires CountsNonNegative(store.repositories)
    requires i <= j < |ChartDates(store.cumulative)|
    ensures CumulativeSeries(store.cumulative)[i] <= CumulativeSeries(store.cumulative)[j]
  {
    var ds := ChartDates(store.cumulative);
    IncreasingLessEq(ds, i, j);
    TotalsNondecreasing(store, ds[i], ds[j]);
  }

  /** The cumulative chart's points are the running sums of the daily chart's. */
  lemma CumulativeSeriesIsRunningDaily(cum: map<string, CumEntry>)
    requires RunningInvariant(cum)
    ensures var ys := CumulativeSeries(cum);
      forall i :: 0 <= i < |ys| ==> ys[i] == Total(DailyOf(cum), ChartDates(cum)[..i + 1])
  {
    var ds := ChartDates(cum);
    var ys := CumulativeSeries(cum);
    forall i | 0 <= i < |ys|
      ensures ys[i] == Total(DailyOf(cum), ds[..i + 1])
    {
      CumulativePointIsRunning(cum, i);
    }
  }

  lemma CumulativePointIsRunning(cum: map<string, CumEntry>, i: nat)
    requires RunningInvariant(cum)
    requires i < |ChartDates(cum)|
    ensures CumulativeSeries(cum)[i] == Total(DailyOf(cum), ChartDates(cum)[..i + 1])
  {
    var ds := ChartDates(cum);
    assert ds[i] in cum;
    TotalThroughIsPrefix(DailyOf(cum), ds, i);
  }

  /** `plot_repository_breakdown`'s bars: the top 15. */
  function Breakdown(repos: Repositories, order: seq<string>): (r: seq<Ranked>)
    requires Enumerates(order, repos)
    ensures |r| == Min(BreakdownCount, |PositiveRepos(repos)|)
    ensures Descending(r)
    ensures forall e :: e in r ==> e.name in repos && e.clones == RepoTotal(repos[e.name]) && e.clones > 0
    ensures LeadsRanking(r, repos, order)
  {
    TopRepositoriesLength(repos, order, BreakdownCount);
    TopRepositoriesLead(repos, order, BreakdownCount);
    TopRepositories(repos, order, BreakdownCount)
  }

  /** One repository's running clone total along its sorted dates. */
  function TrendSeries(daily: Daily): (r: seq<int>)
    ensures |r| == |daily.Keys|
    ensures forall i :: 0 <= i < |r| ==> r[i] == Total(Counts(daily), SortedKeys(daily.Keys)[..i + 1])
  {
    RunningTotals(Counts(daily), SortedKeys(daily.Keys))
  }

  /** The last point of a repository's trend is its total. */
  lemma TrendEndsAtTotal(daily: Daily)
    requires daily.Keys != {}
    ensures TrendSeries(daily)[|daily.Keys| - 1] == RepoTotal(daily)
  {
    var ds := SortedKeys(daily.Keys);
    assert ds[..|ds|] == ds;
  }

  /** With non-negative counts, a trend never falls. */
  lemma TrendNondecreasing(daily: Daily)
    requires forall d :: d in daily ==> daily[d].count >= 0
    ensures var r := TrendSeries(daily);
      forall i, j :: 0 <= i <= j < |r| ==> r[i] <= r[j]
  {
    RunningTotalsNondecreasing(Counts(daily), SortedKeys(daily.Keys));
  }

  /** One line of the trend chart. */
  datatype TrendLine = TrendLine(name: string, dates: seq<string>, cumulative: seq<int>)

  /**
   `line` draws `daily`: its dates are the record's sorted dates, the point
   at each date is the sum of the counts up to and including it, and the
   last point is the record's total.
   */
  predicate Draws(line: TrendLine, daily: Daily) {
    && line.dates == SortedKeys(daily.Keys)
    && |line.cumulative| == |line.dates| > 0
    && (forall i :: 0 <= i < |line.cumulative| ==> line.cumulative[i] == Total(Counts(daily), line.dates[..i + 1]))
    && line.cumulative[|line.cumulative| - 1] == RepoTotal(daily)
  }

  /** A ranked repository's trend line: its sorted dates and running totals. */
  function TrendLineOf(name: string, daily: Daily): (r: TrendLine)
    requires RepoTotal(daily) > 0
    ensures r.name == name
    ensures Draws(r, daily)
  {
    assert daily.Keys != {};
    TrendEndsAtTotal(daily);
    TrendLine(name, SortedKeys(daily.Keys), TrendSeries(daily))
  }

  /** The trend lines of the given repositories, in the given order. */
  function TrendLines(repos: Repositories, names: seq<string>): (r: seq<TrendLine>)
    requires forall n :: n in names ==> n in repos && RepoTotal(repos[n]) > 0
    ensures |r| == |names|
    ensures forall i :: 0 <= i < |r| ==> r[i].name == names[i] && Draws(r[i], repos[names[i]])
  {
    seq(|names|, i requires 0 <= i < |names| => TrendLineOf(names[i], repos[names[i]]))
  }

  /**
   `plot_repository_trend`'s lines: the top 5 repositories, each drawn over
   its own sorted dates and ending at its total.
   */
  function RepositoryTrends(repos: Repositories, order: seq<string>): (r: seq<TrendLine>)
    requires Enumerates(order, repos)
    ensures |r| == Min(TrendCount, |PositiveRepos(repos)|)
    ensures forall i :: 0 <= i < |r| ==>
              && r[i].name in repos
              && RepoTotal(repos[r[i].name]) > 0
              && Draws(r[i], repos[r[i].name])
    ensures && |r| == |TopRepositories(repos, order, TrendCount)|
            && forall i :: 0 <= i < |r| ==> r[i].name == TopRepositories(repos, order, TrendCount)[i].name
  {
    var top := TopRepositories(repos, order, TrendCount);
    TopRepositoriesLength(repos, order, TrendCount);
    RankedNamesPositive(repos, top);
    var ns := Names(top);
    var r := TrendLines(repos, ns);
    assert forall i :: 0 <= i < |r| ==>
             && r[i].name == top[i].name
             && r[i].name in repos
             && RepoTotal(repos[r[i].name]) > 0
             && Draws(r[i], repos[r[i].name]) by {
      forall i | 0 <= i < |r|
        ensures && r[i].name == top[i].name
                && r[i].name in repos
                && RepoTotal(repos[r[i].name]) > 0
                && Draws(r[i], repos[r[i].name])
      {
        assert r[i].name == ns[i] && ns[i] in ns;
      }
    }
    r
  }

  /**
   `total_clones` at the latest date, as the run's closing summary reports
   it: 0 when there are no dates.
   */
  function LatestTotal(cum: map<string, CumEntry>): (t: int)
    ensures cum.Keys == {} ==> t == 0
    ensures cum.Keys != {} ==>
              exists d :: d in cum && t == cum[d].totalClones && forall e :: e in cum ==> LessEq(e, d)
  {
    if cum.Keys == {} then 0 else cum[GreatestKey(cum.Keys)].totalClones
  }

  /** The latest total is the sum of every date's `daily_clones`, 0 without dates. */
  lemma LatestTotalIsSum(cum: map<string, CumEntry>)
    requires RunningInvariant(cum)
    ensures LatestTotal(cum) == Total(DailyOf(cum), SortedKeys(cum.Keys))
  {
    if cum.Keys != {} {
      LatestTotalIsSumOfDaily(cum);
    } else {
      assert SortedKeys(cum.Keys) == [];
    }
  }

  /** Whether a repository's record has at least one dated entry. */
  predicate HasData(repos: Repositories, n: string)
    requires n in repos
  {
    repos[n].Keys != {}
  }

  /** The repositories whose record has at least one dated entry. */
  function WithData(repos: Repositories): set<string> {
    set n | n in repos && HasData(repos, n)
  }

  lemma WithDataBounds(repos: Repositories)
    ensures PositiveRepos(repos) <= WithData(repos) <= repos.Keys
    ensures WithData(repos) == {} <==> forall n :: n in repos ==> !HasData(repos, n)
    ensures WithData(repos) == repos.Keys <==> forall n :: n in repos ==> HasData(repos, n)
  {
    var w := WithData(repos);
    forall n | n in PositiveRepos(repos)
      ensures n in w
    {
      assert RepoTotal(repos[n]) > 0;
    }
    if w != {} {
      var x :| x in w;
      assert x in repos && HasData(repos, x);
    }
    if forall n :: n in repos ==> HasData(repos, n) {
      assert forall n :: n in repos.Keys ==> n in w;
    } else {
      var x :| x in repos && !HasData(repos, x);
      assert x !in w;
    }
  }

  /** How many repositories have at least one dated entry. */
  function ReposWithData(repos: Repositories): (k: nat)
    ensures |PositiveRepos(repos)| <= k <= |repos.Keys|
    ensures k == 0 <==> forall n :: n in repos ==> !HasData(repos, n)
    ensures k == |repos.Keys| <==> forall n :: n in repos ==> HasData(repos, n)
  {
    var w := WithData(repos);
    WithDataBounds(repos);
    SubsetCardinality(w, repos.Keys);
    SubsetCardinality(PositiveRepos(repos), w);
    assert |w| == |repos.Keys| ==> w == repos.Keys by {
      if w != repos.Keys {
        SubsetStrictCardinality(w, repos.Keys);
      }
    }
    |w|
  }

  /**
   `len([r for r in repositories.values() if r['daily_clones']])`: the
   records with data, counted along the iteration order.
   */
  function CountWithData(repos: Repositories, order: seq<string>): (k: nat)
    requires forall n :: n in order ==> n in repos
    ensures k <= |order|
  {
    if order == [] then 0
    else (if HasData(repos, order[0]) then 1 else 0) + CountWithData(repos, order[1..])
  }

  lemma {:induction false} CountWithDataSize(repos: Repositories, order: seq<string>)
    requires Distinct(order)
    requires forall n :: n in order ==> n in repos
    ensures CountWithData(repos, order) == |set n | n in order && HasData(repos, n)|
  {
    if order != [] {
      var x := order[0];
      CountWithDataSize(repos, order[1..]);
      var tail := set n | n in order[1..] && HasData(repos, n);
      var all := set n | n in order && HasData(repos, n);
      assert x !in tail;
      if HasData(repos, x) {
        assert all == {x} + tail;
      } else {
        assert all == tail;
      }
    }
  }

  /** Counting along the iteration order gives the number of repositories with data. */
  lemma ReposWithDataCounted(repos: Repositories, order: seq<string>)
    requires Enumerates(order, repos)
    ensures CountWithData(repos, order) == ReposWithData(repos)
  {
    CountWithDataSize(repos, order);
    assert (set n | n in order && HasData(repos, n)) == WithData(repos);
  }

  /** The "Overall Statistics" section, written only when `cumulative` has dates. */
  datatype Overall = Overall(totalClones: int, daysTracked: nat)

  datatype Summary = Summary(overall: Option<Overall>, reposTracked: nat, top: seq<Ranked>)

  /**
   `generate_stats_summary`'s numbers: total clones and days tracked when
   there are dates, repositories with data, and the top 10 by total.
   */
  function StatsSummary(store: Store, order: seq<string>): (r: Summary)
    requires Enumerates(order, store.repositories)
    ensures r.overall.None? <==> store.cumulative.Keys == {}
    ensures r.overall.Some? ==> r.overall.value.daysTracked == |store.cumulative.Keys|
    ensures r.overall.Some? ==> r.overall.value.totalClones == LatestTotal(store.cumulative)
    ensures r.overall.Some? && Consistent(store) ==> r.overall.value.daysTracked == |AllDates(store.repositories)|
    ensures r.overall.Some? && RunningInvariant(store.cumulative) ==>
              r.overall.value.totalClones == Total(DailyOf(store.cumulative), SortedKeys(store.cumulative.Keys))
    ensures r.reposTracked == CountWithData(store.repositories, order)
    ensures |PositiveRepos(store.repositories)| <= r.reposTracked <= |store.repositories.Keys|
    ensures |r.top| == Min(SummaryCount, |PositiveRepos(store.repositories)|)
    ensures Descending(r.top)
    ensures forall e :: e in r.top ==> e.name in store.repositories && e.clones == RepoTotal(store.repositories[e.name]) > 0
    ensures LeadsRanking(r.top, store.repositories, order)
  {
    var cum := store.cumulative;
    assert RunningInvariant(cum) ==> LatestTotal(cum) == Total(DailyOf(cum), SortedKeys(cum.Keys)) by {
      if RunningInvariant(cum) {
        LatestTotalIsSum(cum);
      }
    }
    TopRepositoriesLength(store.repositories, order, SummaryCount);
    TopRepositoriesLead(store.repositories, order, SummaryCount);
    ReposWithDataCounted(store.repositories, order);
    var overall := if cum.Keys == {} then None else Some(Overall(LatestTotal(cum), |cum.Keys|));
    Summary(overall, ReposWithData(store.repositories), TopRepositories(store.repositories, order, SummaryCount))
  }
}

=== FILE: sums.dfy ===
/**
 Integer sums over a sequence of keys of a `map<string, int>`: the plain sum,
 the sum restricted to keys at or below a bound, and the running (prefix) sums
 that both the cumulative series and the per-repository trend are built from.
 A key the map lacks contributes 0, as `dict.get(k, 0)` would.
 */
module Sums {
  import opened Keys

  function Get(f: map<string, int>, k: string): int {
    if k in f then f[k] else 0
  }

  predicate NonNegative(f: map<string, int>) {
    forall k :: k in f ==> f[k] >= 0
  }

  /** The sum of `f` over the keys `ks`, in order. */
  function Total(f: map<string, int>, ks: seq<string>): int {
    if ks == [] then 0 else Get(f, ks[0]) + Total(f, ks[1..])
  }

  /** The sum of `f` over those keys of `ks` that are `<= bound`. */
  function TotalThrough(f: map<string, int>, ks: seq<string>, bound: string): int {
    if ks == [] then 0
    else (if LessEq(ks[0], bound) then Get(f, ks[0]) else 0) + TotalThrough(f, ks[1..], bound)
  }

  /**
   The running sums along `ks`, started at `start`: the loop
   `total += f[k]; out.append(total)` over `ks`.
   */
  function RunningFrom(f: map<string, int>, ks: seq<string>, start: int): (r: seq<int>)
    ensures |r| == |ks|
    ensures forall i :: 0 <= i < |ks| ==> r[i] == start + Total(f, ks[..i + 1])
  {
    if ks == [] then []
    else
      var next := start + Get(f, ks[0]);
      var rest := RunningFrom(f, ks[1..], next);
      assert forall i :: 0 <= i < |ks| ==> ks[..i + 1][1..] == ks[1..][..i];
      [next] + rest
  }

  /** The running sums along `ks`, started at 0. */
  function RunningTotals(f: map<string, int>, ks: seq<string>): (r: seq<int>)
    ensures |r| == |ks|
    ensures forall i :: 0 <= i < |ks| ==> r[i] == Total(f, ks[..i + 1])
  {
    RunningFrom(f, ks, 0)
  }

  lemma {:induction false} TotalNonNegative(f: map<string, int>, ks: seq<string>)
    requires NonNegative(f)
    ensures Total(f, ks) >= 0
  {
    if ks != [] {
      TotalNonNegative(f, ks[1..]);
    }
  }

  /** When every key is `<= bound`, the bounded sum is the whole sum. */
  lemma {:induction false} TotalThroughAll(f: map<string, int>, ks: seq<string>, bound: string)
    requires forall i :: 0 <= i < |ks| ==> LessEq(ks[i], bound)
    ensures TotalThrough(f, ks, bound) == Total(f, ks)
  {
    if ks != [] {
      TotalThroughAll(f, ks[1..], bound);
    }
  }

  /** When every key is `> bound`, the bounded sum is 0. */
  lemma {:induction false} TotalThroughNone(f: map<string, int>, ks: seq<string>, bound: string)
    requires forall i :: 0 <= i < |ks| ==> Less(bound, ks[i])
    ensures TotalThrough(f, ks, bound) == 0
  {
    if ks != [] {
      LessIrreflexive(bound);
      LessAsymmetric(bound, ks[0]);
      TotalThroughNone(f, ks[1..], bound);
    }
  }

  /**
   Along ascending keys, the sum over the keys `<= ks[i]` is the prefix sum
   up to and including position `i`.
   */
  lemma {:induction false} TotalThroughIsPrefix(f: map<string, int>, ks: seq<string>, i: nat)
    requires Increasing(ks)
    requires i < |ks|
    ensures TotalThrough(f, ks, ks[i]) == Total(f, ks[..i + 1])
  {
    if i == 0 {
      forall k | 0 <= k < |ks[1..]|
        ensures Less(ks[0], ks[1..][k])
      {
        IncreasingLess(ks, 0, k + 1);
      }
      TotalThroughNone(f, ks[1..], ks[0]);
      assert ks[..1][1..] == [];
    } else {
      IncreasingLess(ks, 0, i);
      TotalThroughIsPrefix(f, ks[1..], i - 1);
      assert ks[..i + 1][1..] == ks[1..][..i];
    }
  }

  /** With non-negative values, raising the bound never lowers the bounded sum. */
  lemma {:induction false} TotalThroughMonotone(f: map<string, int>, ks: seq<string>, lo: string, hi: string)
    requires NonNegative(f)
    requires LessEq(lo, hi)
    ensures TotalThrough(f, ks, lo) <= TotalThrough(f, ks, hi)
  {
    if ks != [] {
      if LessEq(ks[0], lo) && ks[0] != lo && lo != hi {
        LessTransitive(ks[0], lo, hi);
      }
      TotalThroughMonotone(f, ks[1..], lo, hi);
    }
  }

  /** Appending a key adds its value. */
  lemma {:induction false} TotalAppend(f: map<string, int>, ks: seq<string>, k: string)
    ensures Total(f, ks + [k]) == Total(f, ks) + Get(f, k)
  {
    if ks == [] {
      assert [k][1..] == [];
    } else {
      assert (ks + [k])[1..] == ks[1..] + [k];
      TotalAppend(f, ks[1..], k);
    }
  }

  /** With non-negative values, running sums never decrease. */
  lemma RunningTotalsNondecreasing(f: map<string, int>, ks: seq<string>)
    requires NonNegative(f)
    ensures forall i, j :: 0 <= i <= j < |ks| ==> RunningTotals(f, ks)[i] <= RunningTotals(f, ks)[j]
  {
    var r := RunningTotals(f, ks);
    forall i, j | 0 <= i <= j < |ks|
      ensures r[i] <= r[j]
    {
      var k := i;
      while k < j
        invariant i <= k <= j
        invariant r[i] <= r[k]
      {
        assert ks[..k + 2] == ks[..k + 1] + [ks[k + 1]];
        TotalAppend(f, ks[..k + 1], ks[k + 1]);
        k := k + 1;
      }
    }
  }
}

=== FILE: tracker.dfy ===
/**
 One collector run (`CloneTracker.run`): every listed repository's fetch
 result is merged in list order, the cumulative series is rebuilt, the store
 is stamped, and the closing summary's numbers are taken.
 */
module Tracker {
  import opened Wrappers
  import opened Keys
  import opened Sums
  import opened CloneData
  import opened Collector
  import opened Aggregate
  import opened Ranking
  import opened Report

  /** A listed repository with what its traffic request returned. */
  datatype Fetch = Fetch(name: string, clones: Option<seq<Sample>>)

  /** The repositories whose request returned a `clones` list. */
  function Answered(fetches: seq<Fetch>): set<string> {
    set f | f in fetches && f.clones.Some? :: f.name
  }

  /** Every fetched sample is stored at its date with at least its count. */
  predicate Stored(repos: Repositories, fetches: seq<Fetch>) {
    forall f :: f in fetches && f.clones.Some? ==> forall s :: s in f.clones.value ==>
      && f.name in repos
      && DateKey(s.timestamp) in repos[f.name]
      && s.count <= repos[f.name][DateKey(s.timestamp)].count
  }

  /**
   Every record of `after` is the record `before` held for that repository
   and date or, whole, the record of a sample fetched for that repository.
   */
  predicate FromFetches(before: Repositories, after: Repositories, fetches: seq<Fetch>) {
    forall n, d :: n in after && d in after[n] ==>
      (n in before && d in before[n] && after[n][d] == before[n][d]) ||
      (exists f, s :: f in fetches && f.name == n && f.clones.Some? && s in f.clones.value &&
                      DateKey(s.timestamp) == d && after[n][d] == s.Stat())
  }

  /**
   Every stored record none of whose repository's fetched samples for its
   date has a greater count is still there, unchanged, uniques included.
   */
  predicate KeepsUnraised(before: Repositories, after: Repositories, fetches: seq<Fetch>) {
    forall n, d ::
      (&& n in before && d in before[n]
       && forall f, s ::
            f in fetches && f.name == n && f.clones.Some? && s in f.clones.value && DateKey(s.timestamp) == d ==>
              s.count <= before[n][d].count) ==>
        n in after && d in after[n] && after[n][d] == before[n][d]
  }

  lemma StoredGrows(a: Repositories, b: Repositories, fetches: seq<Fetch>)
    requires Stored(a, fetches) && Grows(a, b)
    ensures Stored(b, fetches)
  {
    forall f, s | f in fetches && f.clones.Some? && s in f.clones.value
      ensures f.name in b && DateKey(s.timestamp) in b[f.name] && s.count <= b[f.name][DateKey(s.timestamp)].count
    {
      assert f.name in a && DateKey(s.timestamp) in a[f.name];
    }
  }

  /** One `process_repository` call stores its own fetch, and later calls keep it stored. */
  lemma StoredStep(store: Store, f: Fetch, after: Repositories, rest: seq<Fetch>)
    requires Grows(ProcessRepository(store, f.name, f.clones).repositories, after)
    requires Stored(after, rest)
    ensures Stored(after, [f] + rest)
  {
    var next := ProcessRepository(store, f.name, f.clones).repositories;
    assert Stored(next, [f]);
    StoredGrows(next, after, [f]);
    assert forall g :: g in [f] + rest <==> g == f || g in rest;
  }

  lemma FromFetchesOne(store: Store, f: Fetch)
    ensures FromFetches(store.repositories, ProcessRepository(store, f.name, f.clones).repositories, [f])
  {
    var after := ProcessRepository(store, f.name, f.clones).repositories;
    forall n, d | n in after && d in after[n] &&
                  !(n in store.repositories && d in store.repositories[n] && after[n][d] == store.repositories[n][d])
      ensures exists g, s :: g in [f] && g.name == n && g.clones.Some? && s in g.clones.value &&
                             DateKey(s.timestamp) == d && after[n][d] == s.Stat()
    {
      assert f.clones.Some? && n == f.name;
      var s :| s in f.clones.value && DateKey(s.timestamp) == d && after[n][d] == s.Stat();
      assert f in [f];
    }
  }

  lemma FromFetchesCompose(a: Repositories, b: Repositories, c: Repositories, f: Fetch, rest: seq<Fetch>)
    requires FromFetches(a, b, [f]) && FromFetches(b, c, rest)
    ensures FromFetches(a, c, [f] + rest)
  {
    forall n, d | n in c && d in c[n] && !(n in a && d in a[n] && c[n][d] == a[n][d])
      ensures exists g, s :: g in [f] + rest && g.name == n && g.clones.Some? && s in g.clones.value &&
                             DateKey(s.timestamp) == d && c[n][d] == s.Stat()
    {
      if n in b && d in b[n] && c[n][d] == b[n][d] {
        var g, s :| g in [f] && g.name == n && g.clones.Some? && s in g.clones.value &&
                    DateKey(s.timestamp) == d && b[n][d] == s.Stat();
        assert g in [f] + rest;
      } else {
        var g, s :| g in rest && g.name == n && g.clones.Some? && s in g.clones.value &&
                    DateKey(s.timestamp) == d && c[n][d] == s.Stat();
        assert g in [f] + rest;
      }
    }
  }

  lemma KeepsUnraisedOne(store: Store, f: Fetch)
    ensures KeepsUnraised(store.repositories, ProcessRepository(store, f.name, f.clones).repositories, [f])
  {
    var prior: Repositories := store.repositories;
    var after := ProcessRepository(store, f.name, f.clones).repositories;
    forall n: string, d: string | n in prior && d in prior[n] &&
                  (forall g: Fetch, s: Sample ::
                     g in [f] && g.name == n && g.clones.Some? && s in g.clones.value && DateKey(s.timestamp) == d ==>
                       s.count <= prior[n][d].count)
      ensures n in after && d in after[n] && after[n][d] == prior[n][d]
    {
      if n == f.name && f.clones.Some? {
        assert f in [f];
        assert forall s: Sample :: s in f.clones.value && DateKey(s.timestamp) == d ==> s.count <= prior[n][d].count;
      }
    }
  }

  lemma KeepsUnraisedCompose(a: Repositories, b: Repositories, c: Repositories, f: Fetch, rest: seq<Fetch>)
    requires KeepsUnraised(a, b, [f]) && KeepsUnraised(b, c, rest)
    ensures KeepsUnraised(a, c, [f] + rest)
  {
    forall n: string, d: string | n in a && d in a[n] &&
                  (forall g: Fetch, s: Sample ::
                     g in [f] + rest && g.name == n && g.clones.Some? && s in g.clones.value && DateKey(s.timestamp) == d ==>
                       s.count <= a[n][d].count)
      ensures n in c && d in c[n] && c[n][d] == a[n][d]
    {
      assert forall g :: g in [f] ==> g in [f] + rest;
      assert forall g :: g in rest ==> g in [f] + rest;
      assert n in b && d in b[n] && b[n][d] == a[n][d];
    }
  }

  /** The loop calling `process_repository` for each listed repository, in list order. */
  function ProcessEach(store: Store, fetches: seq<Fetch>): Store
    decreases |fetches|
  {
    if fetches == [] then store
    else ProcessEach(ProcessRepository(store, fetches[0].name, fetches[0].clones), fetches[1..])
  }

  lemma AnsweredCons(fetches: seq<Fetch>)
    requires fetches != []
    ensures Answered(fetches) == Answered([fetches[0]]) + Answered(fetches[1..])
  {
    assert forall g :: g in fetches <==> g == fetches[0] || g in fetches[1..];
  }

  /** The loop touches only `repositories`, adds the answered names and leaves the others alone. */
  lemma {:induction false} ProcessEachFrame(store: Store, fetches: seq<Fetch>)
    ensures var r := ProcessEach(store, fetches);
      && r.cumulative == store.cumulative && r.lastUpdated == store.lastUpdated
      && r.repositories.Keys == store.repositories.Keys + Answered(fetches)
      && forall n :: n in store.repositories && n !in Answered(fetches) ==> r.repositories[n] == store.repositories[n]
    decreases |fetches|
  {
    if fetches != [] {
      AnsweredCons(fetches);
      ProcessEachFrame(ProcessRepository(store, fetches[0].name, fetches[0].clones), fetches[1..]);
    }
  }

  lemma {:induction false} ProcessEachGrows(store: Store, fetches: seq<Fetch>)
    ensures Grows(store.repositories, ProcessEach(store, fetches).repositories)
    decreases |fetches|
  {
    if fetches != [] {
      var next := ProcessRepository(store, fetches[0].name, fetches[0].clones);
      ProcessEachGrows(next, fetches[1..]);
      GrowsTransitive(store.repositories, next.repositories, ProcessEach(next, fetches[1..]).repositories);
    }
  }

  lemma {:induction false} ProcessEachStored(store: Store, fetches: seq<Fetch>)
    ensures Stored(ProcessEach(store, fetches).repositories, fetches)
    decreases |fetches|
  {
    if fetches != [] {
      var f := fetches[0];
      var next := ProcessRepository(store, f.name, f.clones);
      ProcessEachStored(next, fetches[1..]);
      ProcessEachGrows(next, fetches[1..]);
      StoredStep(store, f, ProcessEach(next, fetches[1..]).repositories, fetches[1..]);
      assert fetches == [f] + fetches[1..];
    }
  }

  lemma {:induction false} ProcessEachFromFetches(store: Store, fetches: seq<Fetch>)
    ensures FromFetches(store.repositories, ProcessEach(store, fetches).repositories, fetches)
    decreases |fetches|
  {
    if fetches != [] {
      var f := fetches[0];
      var next := ProcessRepository(store, f.name, f.clones);
      ProcessEachFromFetches(next, fetches[1..]);
      FromFetchesOne(store, f);
      FromFetchesCompose(store.repositories, next.repositories, ProcessEach(next, fetches[1..]).repositories, f, fetches[1..]);
      assert fetches == [f] + fetches[1..];
    }
  }

  lemma {:induction false} ProcessEachKeepsUnraised(store: Store, fetches: seq<Fetch>)
    ensures KeepsUnraised(store.repositories, ProcessEach(store, fetches).repositories, fetches)
    decreases |fetches|
  {
    if fetches == [] {
      assert ProcessEach(store, fetches) == store;
    } else {
      var f := fetches[0];
      var next := ProcessRepository(store, f.name, f.clones);
      ProcessEachKeepsUnraised(next, fetches[1..]);
      KeepsUnraisedOne(store, f);
      KeepsUnraisedCompose(store.repositories, next.repositories, ProcessEach(next, fetches[1..]).repositories, f, fetches[1..]);
      assert fetches == [f] + fetches[1..];
    }
  }

  /**
   The whole loop: only the answered repositories are added or changed, no
   repository, date or count is lost, every fetched sample is stored with at
   least its count, every record comes from the store or from a fetch, and
   a stored record no fetched sample exceeds is kept whole.
   */
  function ProcessAll(store: Store, fetches: seq<Fetch>): (r: Store)
    ensures r.cumulative == store.cumulative && r.lastUpdated == store.lastUpdated
    ensures r.repositories.Keys == store.repositories.Keys + Answered(fetches)
    ensures Grows(store.repositories, r.repositories)
    ensures forall n :: n in store.repositories && n !in Answered(fetches) ==>
              r.repositories[n] == store.repositories[n]
    ensures Stored(r.repositories, fetches)
    ensures FromFetches(store.repositories, r.repositories, fetches)
    ensures KeepsUnraised(store.repositories, r.repositories, fetches)
  {
    ProcessEachKeepsUnraised(store, fetches);
    ProcessEachFrame(store, fetches);
    ProcessEachGrows(store, fetches);
    ProcessEachStored(store, fetches);
    ProcessEachFromFetches(store, fetches);
    ProcessEach(store, fetches)
  }

  /**
   A whole collection run: merge, rebuild `cumulative`, stamp `last_updated`
   with the run's clock reading `now`.
   */
  function Run(store: Store, fetches: seq<Fetch>, now: string): (r: Store)
    ensures Consistent(r)
    ensures r.repositories.Keys == store.repositories.Keys + Answered(fetches)
    ensures Grows(store.repositories, r.repositories)
    ensures Stored(r.repositories, fetches)
    ensures forall n :: n in store.repositories && n !in Answered(fetches) ==>
              r.repositories[n] == store.repositories[n]
    ensures FromFetches(store.repositories, r.repositories, fetches)
    ensures KeepsUnraised(store.repositories, r.repositories, fetches)
    ensures r.lastUpdated == Some(now)
  {
    var merged := ProcessAll(store, fetches);
    RecomputeCumulative(merged).(lastUpdated := Some(now))
  }

  /** The numbers the run prints at the end. */
  datatype RunSummary = RunSummary(reposWithData: nat, reposListed: nat, daysTracked: nat, totalClones: int)

  function Summarize(store: Store, fetches: seq<Fetch>): (r: RunSummary)
    ensures r.reposWithData == ReposWithData(store.repositories)
    ensures |PositiveRepos(store.repositories)| <= r.reposWithData <= |store.repositories.Keys|
    ensures r.reposListed == |fetches|
    ensures r.daysTracked == |store.cumulative.Keys|
    ensures r.daysTracked == 0 ==> r.totalClones == 0
    ensures Consistent(store) ==>
              r.totalClones == Total(DailyOf(store.cumulative), SortedKeys(store.cumulative.Keys))
  {
    var cum := store.cumulative;
    assert Consistent(store) ==> LatestTotal(cum) == Total(DailyOf(cum), SortedKeys(cum.Keys)) by {
      if Consistent(store) {
        LatestTotalIsSum(cum);
      }
    }
    RunSummary(ReposWithData(store.repositories), |fetches|, |cum.Keys|, LatestTotal(cum))
  }

  /**
   A first run on an empty store with one sample of 5 clones (3 unique) on
   2024-01-01 for repository "a" yields one cumulative entry of 5 and 5.
   */
  lemma FirstSampleScenario(now: string)
    ensures var s := Run(EmptyStore(), [Fetch("a", Some([Sample("2024-01-01T00:00:00Z", 5, 3)]))], now);
      s.cumulative == map["2024-01-01" := CumEntry(5, 5)]
  {
    var s := Run(EmptyStore(), [Fetch("a", Some([Sample("2024-01-01T00:00:00Z", 5, 3)]))], now);
    FirstSampleRepositories(now);
    OneCountCumulative(s, "a", "2024-01-01", DayStat(5, 3));
  }

  lemma FirstSampleRepositories(now: string)
    ensures Run(EmptyStore(), [Fetch("a", Some([Sample("2024-01-01T00:00:00Z", 5, 3)]))], now).repositories
      == map["a" := map["2024-01-01" := DayStat(5, 3)]]
  {
    var sm := Sample("2024-01-01T00:00:00Z", 5, 3);
    var day: Daily := map["2024-01-01" := DayStat(5, 3)];
    assert DateKey(sm.timestamp) == "2024-01-01";
    assert MergeSamples(map[], [sm]) == day by {
      assert MergeSamples(map[], [sm]) == MergeSamples(MergeSample(map[], sm), []);
    }
    var p := ProcessRepository(EmptyStore(), "a", Some([sm]));
    assert p.repositories == map["a" := day];
    assert ProcessEach(EmptyStore(), [Fetch("a", Some([sm]))]) == ProcessEach(p, []);
  }

  /** A consistent store holding one count on one date has that count as its whole series. */
  lemma OneCountCumulative(s: Store, n: string, d: string, stat: DayStat)
    requires Consistent(s)
    requires s.repositories == map[n := map[d := stat]]
    ensures s.cumulative == map[d := CumEntry(stat.count, stat.count)]
  {
    var cum := s.cumulative;
    assert cum.Keys == {d} by {
      AllDatesOne(s.repositories, n, d);
    }
    assert cum[d].dailyClones == stat.count by {
      OneDateSum(s.repositories, n, d, stat);
    }
    assert cum[d].totalClones == cum[d].dailyClones by {
      OneDateRunning(cum, d);
    }
    SingletonMap(cum, d, CumEntry(stat.count, stat.count));
  }

  lemma SingletonMap<V>(m: map<string, V>, k: string, v: V)
    requires m.Keys == {k} && m[k] == v
    ensures m == map[k := v]
  {
  }

  lemma OneDateSum(repos: Repositories, n: string, d: string, stat: DayStat)
    requires repos == map[n := map[d := stat]]
    ensures DailySum(repos, d) == stat.count
  {
    SortedSingleton(n);
    assert SumOverRepos(repos, [n], d) == Get(Counts(repos[n]), d) + SumOverRepos(repos, [], d);
  }

  lemma OneDateRunning(cum: map<string, CumEntry>, d: string)
    requires RunningInvariant(cum)
    requires cum.Keys == {d}
    ensures cum[d].totalClones == cum[d].dailyClones
  {
    var f := DailyOf(cum);
    SortedSingleton(d);
    assert TotalThrough(f, [d], d) == Get(f, d) + TotalThrough(f, [], d);
  }

  lemma AllDatesOne(repos: Repositories, n: string, d: string)
    requires repos.Keys == {n} && repos[n].Keys == {d}
    ensures AllDates(repos) == {d}
  {
  }

  lemma SortedSingleton(k: string)
    ensures SortedKeys({k}) == [k]
  {
  }

  /**
   A date already stored with count 3 keeps it when the next run fetches
   count 2 for that date.
   */
  lemma NoRegressionScenario(store: Store, uniques: int, now: string)
    requires "a" in store.repositories
    requires "2024-01-02" in store.repositories["a"]
    requires store.repositories["a"]["2024-01-02"].count == 3
    ensures var s := Run(store, [Fetch("a", Some([Sample("2024-01-02T00:00:00Z", 2, uniques)]))], now);
      s.repositories["a"]["2024-01-02"] == store.repositories["a"]["2024-01-02"]
  {
    var fetches := [Fetch("a", Some([Sample("2024-01-02T00:00:00Z", 2, uniques)]))];
    SmallerCountNotRaising(store.repositories, fetches, uniques);
    KeptWhenNotRaised(store.repositories, Run(store, fetches, now).repositories, fetches, "a", "2024-01-02");
  }

  lemma SmallerCountNotRaising(prior: Repositories, fetches: seq<Fetch>, uniques: int)
    requires "a" in prior && "2024-01-02" in prior["a"] && prior["a"]["2024-01-02"].count == 3
    requires fetches == [Fetch("a", Some([Sample("2024-01-02T00:00:00Z", 2, uniques)]))]
    ensures forall f :: f in fetches && f.name == "a" && f.clones.Some? ==>
              forall s :: s in f.clones.value && DateKey(s.timestamp) == "2024-01-02" ==>
                s.count <= prior["a"]["2024-01-02"].count
  {
  }

  lemma KeptWhenNotRaised(prior: Repositories, after: Repositories, fetches: seq<Fetch>, n: string, d: string)
    requires KeepsUnraised(prior, after, fetches)
    requires n in prior && d in prior[n]
    requires forall f :: f in fetches && f.name == n && f.clones.Some? ==>
               forall s :: s in f.clones.value && DateKey(s.timestamp) == d ==> s.count <= prior[n][d].count
    ensures n in after && d in after[n] && after[n][d] == prior[n][d]
  {
  }

  /**
   Two repositories: "a" with 5 clones on 2024-01-01 and 3 on 2024-01-02,
   "b" with 2 on 2024-01-01. The daily sums are 7 and 3, and the running
   total carries 7 across the date boundary to reach 10.
   */
  lemma TwoRepositoriesScenario(s: Store, u1: int, u2: int, u3: int)
    requires Consistent(s)
    requires s.repositories == map["a" := map["2024-01-01" := DayStat(5, u1), "2024-01-02" := DayStat(3, u2)],
                                   "b" := map["2024-01-01" := DayStat(2, u3)]]
    ensures s.cumulative == map["2024-01-01" := CumEntry(7, 7), "2024-01-02" := CumEntry(10, 3)]
  {
    var cum := s.cumulative;
    TwoDates(s.repositories, u1, u2, u3);
    TwoDateSums(s.repositories, u1, u2, u3);
    assert cum["2024-01-01"].dailyClones == 7 && cum["2024-01-02"].dailyClones == 3;
    TwoDateRunning(cum);
    PairMap(cum, "2024-01-01", "2024-01-02", CumEntry(7, 7), CumEntry(10, 3));
  }

  lemma TwoDates(repos: Repositories, u1: int, u2: int, u3: int)
    requires repos == map["a" := map["2024-01-01" := DayStat(5, u1), "2024-01-02" := DayStat(3, u2)],
                          "b" := map["2024-01-01" := DayStat(2, u3)]]
    ensures AllDates(repos) == {"2024-01-01", "2024-01-02"}
  {
    assert "2024-01-01" in repos["a"] && "2024-01-02" in repos["a"];
  }

  lemma TwoDateSums(repos: Repositories, u1: int, u2: int, u3: int)
    requires repos == map["a" := map["2024-01-01" := DayStat(5, u1), "2024-01-02" := DayStat(3, u2)],
                          "b" := map["2024-01-01" := DayStat(2, u3)]]
    ensures DailySum(repos, "2024-01-01") == 7 && DailySum(repos, "2024-01-02") == 3
  {
    SortedPair("a", "b");
    assert repos.Keys == {"a", "b"};
    assert Counts(repos["a"]) == map["2024-01-01" := 5, "2024-01-02" := 3];
    assert Counts(repos["b"]) == map["2024-01-01" := 2];
    assert SumOverRepos(repos, ["a", "b"], "2024-01-01") == 5 + SumOverRepos(repos, ["b"], "2024-01-01");
    assert SumOverRepos(repos, ["b"], "2024-01-01") == 2 + SumOverRepos(repos, [], "2024-01-01");
    assert SumOverRepos(repos, ["a", "b"], "2024-01-02") == 3 + SumOverRepos(repos, ["b"], "2024-01-02");
    assert SumOverRepos(repos, ["b"], "2024-01-02") == 0 + SumOverRepos(repos, [], "2024-01-02");
  }

  lemma TwoDateRunning(cum: map<string, CumEntry>)
    requires RunningInvariant(cum)
    requires cum.Keys == {"2024-01-01", "2024-01-02"}
    requires cum["2024-01-01"].dailyClones == 7 && cum["2024-01-02"].dailyClones == 3
    ensures cum["2024-01-01"].totalClones == 7 && cum["2024-01-02"].totalClones == 10
  {
    var f := DailyOf(cum);
    var ks := ["2024-01-01", "2024-01-02"];
    SortedPair("2024-01-01", "2024-01-02");
    assert !LessEq("2024-01-02", "2024-01-01") by {
      LessAsymmetric("2024-01-01", "2024-01-02");
    }
    assert TotalThrough(f, ks, "2024-01-01") == 7 + TotalThrough(f, ks[1..], "2024-01-01");
    assert TotalThrough(f, ks[1..], "2024-01-01") == 0 + TotalThrough(f, [], "2024-01-01");
    assert TotalThrough(f, ks, "2024-01-02") == 7 + TotalThrough(f, ks[1..], "2024-01-02");
    assert TotalThrough(f, ks[1..], "2024-01-02") == 3 + TotalThrough(f, [], "2024-01-02");
  }

  /** The sorted keys of a two-element set are its elements in order. */
  lemma SortedPair(x: string, y: string)
    requires Less(x, y)
    ensures SortedKeys({x, y}) == [x, y]
  {
    var r := SortedKeys({x, y});
    SortedKeysOrdered({x, y});
    LessIrreflexive(x);
    assert |r| == 2 && Less(r[0], r[1]);
    assert r[0] in {x, y} && r[1] in {x, y};
    if r[0] == y {
      LessAsymmetric(x, y);
      assert false;
    }
  }

  lemma PairMap<V>(m: map<string, V>, j: string, k: string, v: V, w: V)
    requires m.Keys == {j, k} && m[j] == v && m[k] == w
    ensures m == map[j := v, k := w]
  {
  }
}

=== FILE: wrappers.dfy ===
/** The optional value used for results that may be missing. */
module Wrappers {

  datatype Option<+T> = None | Some(value: T)
}
